=== FILE: README.md ===
# Phone-OTP e-commerce backend, modelled in Dafny

This project models the rule-bearing core of a Django REST e-commerce backend. Each Dafny module
follows one source file.

**Authentication**

- `AuthViews` covers authentication/views.py. It models the OTP flows:
  - `authorize` and `forgot_password` issue a pending entry `{code, password, attempts}`.
    The entry lives in the shared volatile cache under `"sms_code_"+phone` (300 s) or
    `"reset_code_"+phone` (600 s).
  - `verify_code` and `reset_password` consume that entry: expired, too many attempts,
    wrong code (one more attempt, full timeout again), or match.
  - A matching `verify_code` then logs an existing user in or registers a new one.
  - `login` checks a password.
- `AuthUtils` covers authentication/utils.py:
  - verification codes;
  - `format_phone_number`, `validate_phone_number` and `mask_phone_number`;
  - SMS templates;
  - the fixed-window SMS rate limiter. Its counters live in the same cache under
    `"sms_rate_..."` keys.
- `AuthSerializers` covers authentication/serializers.py: the `^\+\d{10,15}$` phone check, the
  login rule and the forgot-password phone check.
- `AuthModels` covers authentication/models.py: the user record and the five-minute
  `OTPVerification.is_valid`.
- `VolatileCache` is Django's cache. Keys are the source's own strings. Each value carries its
  expiry instant, and the clock `now` is a parameter.

**Shop**

- `CartViews` covers cart/views.py. A per-user table of cart lines supports GET totals, POST
  add-or-merge, and `remove_from_cart`.
- `OrderModels` covers orders/models.py:
  - status choices;
  - field defaults;
  - `Order.save` and `OrderItem.save`;
  - `generate_order_number`, with a parser proving the number round-trips.
- `OrderSerializers` covers orders/serializers.py: `OrderCreateSerializer.create` turns a cart into
  an order.
- `OrderViews` covers orders/views.py: the requester's orders, the list's pagination metadata and
  the detail view's ownership check.
- `ProductViews` covers products/views.py: the catalog filter chain, `like_product` and
  `create_review`.
- `ReviewModels`, `ReviewSerializers` and `ReviewViews` cover the reviews app:
  - rating bounds;
  - likes as a set of (user, product) pairs;
  - review eligibility, the one-review-per-pair rule and the like summary.

**Conventions**

- Objects whose fields the source updates in place are classes whose methods `modify` them:
  - `AuthService` (the cache and the user table);
  - `Cache`, `CartTable`, `Order`, `OrderItem`, `ReviewTable` and `LikeTable`.
- Each such method's postcondition ties the new state and the response to a pure step function of
  the old state. The lemmas state what those steps promise.
- Money is integer cents. The shipping fee default 5.00 is `500`. Python's `int`, `Decimal` and `float` are told apart only where they meet, in the order total.
- Request fields are `Option<string>`. `Given` is Python truthiness: present and non-empty.
- The clock, the random digits and the UUID are parameters.

## Model

| member | source | states |
|---|---|---|
| AuthModels.NewUser | authentication/models.py:7-14 | a new user has the given phone, username, names and password, and `is_phone_verified` is false |
| AuthModels.SetPassword | authentication/views.py:392-394 | afterwards the user's password checks against the new one, and no other field changes |
| AuthModels.NewOTPVerification | authentication/models.py:20-31 | a new OTP row is unused and valid at its creation instant |
| AuthModels.OTPVerification.IsValid | authentication/models.py:29-31 | valid exactly before the instant five minutes after creation |
| AuthModels.ValidityBoundary | authentication/models.py:29-31 | an OTP is valid one microsecond before the five-minute mark and invalid at exactly five minutes |
| AuthModels.ValidityMonotone | authentication/models.py:29-31 | once invalid, an OTP stays invalid at every later instant |
| AuthModels.ValidityIgnoresUse | authentication/models.py:24-31 | validity does not depend on `is_used` |
| AuthSerializers.ValidatePhone | authentication/serializers.py:14-18 | accepts exactly '+' and 10 to 15 digits, optionally followed by one final newline; a rejection is "Invalid phone number format" |
| AuthSerializers.PatternImpliesUtilValid | authentication/serializers.py:16 | every phone the serializer regex accepts is also accepted by `validate_phone_number` |
| AuthSerializers.PlusNineDigits | authentication/utils.py:126-138 | '+' and any nine digits passes `validate_phone_number` but fails the serializer regex, so the two checks differ |
| AuthSerializers.PlusDigitsFormatUnchanged | authentication/utils.py:108-123 | '+' followed by a digit count other than nine formats to itself |
| AuthSerializers.ValidateVerifyRequest | authentication/serializers.py:21-30 | `VerifySerializer` accepts exactly a well-formed phone, passing code and the optional password and name through unchanged; a rejection is "Invalid phone number format" |
| AuthSerializers.ValidateResetRequest | authentication/serializers.py:73-81 | `ResetPasswordSerializer` accepts exactly a well-formed phone, passing code and new_password through unchanged; a rejection is "Invalid phone number format" |
| AuthSerializers.ValidateLogin | authentication/serializers.py:37-51 | a missing field gives "Phone and password required"; credentials are checked before the verified flag; matching credentials of an unverified user give "Phone number not verified"; success holds exactly for matching credentials of a verified user, and returns that user |
| AuthSerializers.ValidateForgotPasswordPhone | authentication/serializers.py:65-70 | a malformed phone is "Invalid phone number format"; a well-formed phone of no user is "User with this phone number not found"; success holds exactly for a well-formed phone of an existing user |
| AuthSerializers.MalformedPhoneNeverLooksUp | authentication/serializers.py:65-69 | a malformed phone gets the same answer whatever the user table holds (no lookup happens) |
| AuthUtils.GenerateVerificationCode | authentication/utils.py:9-11 | the code has exactly `length` characters, all decimal digits |
| AuthUtils.EveryDigitStringIsACode | authentication/utils.py:9-11 | every digit string of the requested length is a possible code |
| AuthUtils.FormatPhoneNumber | authentication/utils.py:108-123 | the result is '+' followed by the input's digits, or by "998" and those digits |
| AuthUtils.FormatInsertsCountryCode | authentication/utils.py:116-121 | "+998" is inserted exactly when the digits are nine, start with '9' and do not start with "998"; otherwise only '+' is added |
| AuthUtils.FormatIdempotent | authentication/utils.py:108-123 | formatting an already formatted number returns it unchanged |
| AuthUtils.FormatOfNonNineDigits | authentication/utils.py:113-121 | a number whose digit count is not nine is only prefixed with '+' |
| AuthUtils.ValidatePhoneNumber | authentication/utils.py:126-138 | accepts exactly when the formatted number has 10 to 16 characters, i.e. 9 to 15 digits after '+' |
| AuthUtils.MaskPhoneNumber | authentication/utils.py:141-148 | inputs shorter than 8 are returned unchanged; otherwise the length is kept, the first and last four characters are kept, and every middle position is '*' |
| AuthUtils.Render | authentication/utils.py:166 | formatting succeeds exactly when every replacement field has an argument |
| AuthUtils.RenderConcat | authentication/utils.py:166 | a template of two parts renders as the first part's text followed by the second's, and fails exactly when a part fails |
| AuthUtils.PieceText | authentication/utils.py:166 | literal text renders as itself; a field renders as its argument, and fails without one |
| AuthUtils.RenderTextFieldText | authentication/utils.py:166 | text, one field, text renders as the text with the argument in the field's place |
| AuthUtils.GetSmsTemplate | authentication/utils.py:160-167 | an unknown template name gives ""; a known one renders exactly when its fields are supplied |
| AuthUtils.VerificationText | authentication/utils.py:152-167 | with a `code`, "verification" renders as "Tasdiqlash kodi: " + code + ". Bu kodni hech kimga bermang!" |
| AuthUtils.PasswordResetText | authentication/utils.py:152-167 | with a `code`, "password_reset" renders as "Parolni tiklash kodi: " + code + ". Bu kodni hech kimga bermang!" |
| AuthUtils.WelcomeText | authentication/utils.py:152-167 | "welcome" renders as its fixed text for any arguments |
| AuthUtils.OrderConfirmationText | authentication/utils.py:152-167 | with `order_number` and `total`, "order_confirmation" renders as "Buyurtmangiz #" + order_number + " qabul qilindi. Jami: " + total + " so'm" |
| AuthUtils.CheckSmsRateLimit | authentication/utils.py:178-206 | allowed exactly when the hour count is below 5, the day count below 20 and, for a given IP only, the IP hour count below 50; each denial reason holds exactly when its check is the first one breached |
| AuthUtils.Incremented | authentication/utils.py:209-226 | the counters written are the hour and day keys, and the IP key only when an IP is given; no other key appears and none disappears |
| AuthUtils.IncrementSmsRateLimit | authentication/utils.py:209-226 | the cache becomes `Incremented` of the old cache: hour and day counters, plus the IP counter when an IP is given |
| AuthUtils.CounterKeysDisjoint | authentication/utils.py:186-187 | for a phone starting with '+', hour, day and IP counter keys never coincide |
| AuthUtils.HourKeyInjective | authentication/utils.py:186 | two instants share an hour key only when they are in the same `t // 3600` bucket |
| AuthUtils.IncrementAddsOne | authentication/utils.py:221-226 | the hour and day counters (and the IP counter only when an IP is given) grow by exactly one; every other key keeps its value and timeout |
| AuthUtils.OtherHourIgnored | authentication/utils.py:186-192 | an increment made in a different hour bucket does not change the hourly count the check reads |
| AuthUtils.SameHour | authentication/utils.py:186 | two instants in one hour bucket are less than an hour apart, so an hour counter set at the first is still live at the second |
| AuthUtils.IncrementsAccumulate | authentication/utils.py:209-226 | n increments within one hour raise that hour's counter by n |
| AuthUtils.FiveSendsFillTheHour | authentication/utils.py:190-192 | from an empty hour bucket, five increments in the hour make the next check fail with "Hourly limit exceeded" |
| AuthUtils.FewerSendsKeepTheHourOpen | authentication/utils.py:190-192 | fewer than five increments never trip the hourly limit |
| AuthViews.FirstNameAsWritten | authentication/views.py:143 | the expression as written fails (IndexError) exactly for a non-empty name without words |
| AuthViews.FirstName | authentication/views.py:143 | the first word of the name, or "" exactly when it has no words; it agrees with the code as written wherever that does not fail |
| AuthViews.LastName | authentication/views.py:144 | "" for a name of at most one word; otherwise its words are exactly the name's words after the first |
| AuthViews.RegisteredUser | authentication/views.py:138-152 | username and phone are the phone, the password checks, `name` is the full name, not phone-verified; first and last name together hold exactly the name's words |
| AuthViews.NamePartsRecoverName | authentication/views.py:143-144 | first name and last name split into exactly the name's first word and its remaining words |
| AuthViews.JoinedNameSplits | authentication/views.py:143-144 | a name of words joined by single spaces registers as its first word and the rest joined by single spaces |
| AuthViews.BlankNameBreaksRegistration | authentication/views.py:129-144 | the name " " passes `if not name` and then makes the first-name expression fail |
| AuthViews.AuthorizeStep | authentication/views.py:17-50 | a missing phone is INVALID_REQUEST with nothing written; pending entries stay exactly under OTP keys |
| AuthViews.VerifyCodeStep | authentication/views.py:53-165 | a missing phone or code is INVALID_REQUEST with nothing written; pending entries stay exactly under OTP keys |
| AuthViews.Login | authentication/views.py:168-216 | missing fields give INVALID_REQUEST; tokens are issued exactly for a known phone with the right password; anything else is INVALID_CREDENTIALS, the same for an unknown phone and a wrong password |
| AuthViews.ForgotPasswordStep | authentication/views.py:288-331 | a missing phone is INVALID_REQUEST with nothing written; pending entries stay exactly under OTP keys |
| AuthViews.ResetPasswordStep | authentication/views.py:334-411 | a missing phone, code or new password is INVALID_REQUEST with nothing written; pending entries stay exactly under OTP keys |
| AuthViews.AuthService.Authorize | authentication/views.py:17-50 | the cache and response are those of `AuthorizeStep`, using the drawn code; the invariant is kept |
| AuthViews.AuthService.VerifyCode | authentication/views.py:53-165 | the cache, user table and response are those of `VerifyCodeStep`; the invariant is kept |
| AuthViews.AuthService.ForgotPassword | authentication/views.py:288-331 | the cache and response are those of `ForgotPasswordStep`; the invariant is kept |
| AuthViews.AuthService.ResetPassword | authentication/views.py:334-411 | the cache, user table and response are those of `ResetPasswordStep`; the invariant is kept |
| AuthViews.NamespacesDisjoint | authentication/views.py:37 | a login-code key never equals a reset-code key |
| AuthViews.CounterKeysAreNotOtpKeys | authentication/utils.py:186-201 | rate-limit counter keys lie outside both OTP namespaces |
| AuthViews.IncrementKeepsWellTyped | authentication/utils.py:209-226 | counting an SMS keeps pending entries exactly under OTP keys |
| AuthViews.AuthorizeIssuesFreshEntry | authentication/views.py:33-42 | a given phone gets `{code, password, attempts 0}`, live for exactly 300 s and replacing any earlier entry; nothing else changes |
| AuthViews.VerifyWithoutEntry | authentication/views.py:71-82 | without a live entry the answer is CODE_EXPIRED and nothing changes |
| AuthViews.ExhaustedEntryIsDeleted | authentication/views.py:84-93 | with 3 or more attempts the entry is deleted and TOO_MANY_ATTEMPTS returned, even for the right code |
| AuthViews.WrongCodeCountsAttempt | authentication/views.py:95-106 | a wrong code rewrites the entry with attempts + 1, code and password unchanged, and a fresh full 300 s timeout; the answer is INVALID_CODE |
| AuthViews.MatchConsumesCode | authentication/views.py:108-136 | a match deletes the entry whatever the account outcome, so any later verify of that phone is CODE_EXPIRED |
| AuthViews.ExistingUserLogsIn | authentication/views.py:111-125 | for a known phone a match issues tokens unless a wrong password is supplied, which is INVALID_CREDENTIALS; users are untouched |
| AuthViews.NewPhoneRegisters | authentication/views.py:127-152 | an unknown phone with password and name is registered (username = phone, names from the full name, not phone-verified) and gets tokens; without both the answer is REGISTRATION_DATA_REQUIRED |
| AuthViews.ThreeWrongCodesLockOut | authentication/views.py:84-106 | after three wrong codes within their windows, the fourth try is TOO_MANY_ATTEMPTS whatever code it offers |
| AuthViews.WrongThenRightCode | authentication/views.py:95-109 | a wrong code (attempts 1) followed by the right one issues tokens and removes the entry |
| AuthViews.ForgotPasswordIssuesResetCode | authentication/views.py:303-331 | a known phone gets `{code, attempts 0}` for 600 s and login codes are untouched; an unknown phone is USER_NOT_FOUND with no write |
| AuthViews.MatchingResetCode | authentication/views.py:388-411 | a matching reset code sets only that user's password and deletes the entry; a vanished user leaves everything, the entry included, in place |
| AuthViews.ResetWithoutEntry | authentication/views.py:351-362 | without a live reset entry the answer is CODE_EXPIRED and nothing changes |
| AuthViews.ExhaustedResetEntryIsDeleted | authentication/views.py:364-373 | with 3 or more attempts the reset entry is deleted and TOO_MANY_ATTEMPTS returned, even for the right code; no password changes |
| AuthViews.WrongResetCodeCountsAttempt | authentication/views.py:375-386 | a wrong reset code counts an attempt with a fresh 600 s window |
| AuthViews.ResetKeepsLoginCodes | authentication/views.py:352 | `reset_password` never changes a login-code entry |
| AuthViews.VerifyKeepsResetCodes | authentication/views.py:72 | `verify_code` never changes a reset-code entry |
| VolatileCache.Cache.Set | authentication/views.py:38-42 | the key now holds the value with a fresh timeout; other keys are unchanged |
| VolatileCache.Cache.Delete | authentication/views.py:109 | the key reads as absent at every instant; other keys are unchanged |
| CartViews.UserLines | cart/views.py:15 | exactly the requester's lines, in table order |
| CartViews.CartTotalOfUserLines | cart/views.py:15-16 | the requester's total is the sum of the subtotals of the lines the view lists |
| CartViews.SummaryOf | cart/views.py:14-25 | the items are exactly the requester's lines, the total is their summed subtotals, and items_count is their number |
| CartViews.Added | cart/views.py:27-67 | fails exactly for missing input, a quantity below 1, or a missing or out-of-stock product; on success the pair has a line, and the table grew by one line exactly when it had none |
| CartViews.Removed | cart/views.py:70-94 | fails with "not found in cart" exactly when the pair has no line; otherwise the table loses one line |
| CartViews.IndexOf | cart/views.py:74 | finds the first line of (user, product), or reports that there is none |
| CartViews.WithoutUser | orders/serializers.py:61 | exactly the lines of other users remain |
| CartViews.CartTable.Find | cart/views.py:74 | the loop finds the position `IndexOf` specifies |
| CartViews.CartTable.View | cart/views.py:14-25 | the loop reports the requester's items, total and `items_count` as `SummaryOf` specifies |
| CartViews.CartTable.Add | cart/views.py:27-67 | the table becomes that of `Added`, or is unchanged on an error; one line per pair and positive quantities are kept |
| CartViews.CartTable.Remove | cart/views.py:70-94 | the table becomes that of `Removed`, or is unchanged when the line is absent; the invariant is kept |
| CartViews.CartTable.ClearUser | orders/serializers.py:61 | the table loses exactly the requester's lines |
| CartViews.AppendKeepsOnePerPair | cart/views.py:41-45 | appending a line for a pair without one keeps at most one line per (user, product) |
| CartViews.UpdateKeepsOnePerPair | cart/views.py:47-49 | raising the quantity of an existing line keeps one line per pair |
| CartViews.RemoveKeepsOnePerPair | cart/views.py:74-75 | deleting a line keeps one line per pair |
| CartViews.WithoutUserKeepsValid | orders/serializers.py:61 | clearing a user's lines keeps one line per pair and positive quantities |
| CartViews.TotalConcat | cart/views.py:16 | the total over two runs of lines is the sum of their totals |
| CartViews.AddMergesOrAppends | cart/views.py:41-53 | a successful add happens only for an in-stock product with quantity >= 1. The pair's quantity grows by exactly the requested amount, and a line is added only when there was none. Every other pair keeps its quantity. The requester's total grows by quantity times price; other users' totals are unchanged |
| CartViews.AddAppends | cart/views.py:41-45 | a new line holds the requested quantity and adds quantity times price to the total |
| CartViews.MergeQuantities | cart/views.py:47-49 | merging raises that pair's quantity by the requested amount and no other pair's |
| CartViews.MergeTotals | cart/views.py:47-53 | merging raises the requester's total by quantity times price and leaves other users' totals alone |
| CartViews.SubtotalGrows | cart/views.py:48 | adding to a line's quantity adds that many times the price to its subtotal |
| CartViews.RejectedAdd | cart/views.py:28-39 | an add fails exactly for missing input, a quantity below 1, or a missing or out-of-stock product; bad input is reported as invalid data before stock is checked |
| CartViews.RemoveDeletesLine | cart/views.py:72-94 | removal fails exactly when the pair has no line. Otherwise exactly that line goes: the pair has no line left and the total loses that line's subtotal. Other pairs and other users' totals are unchanged |
| CartViews.QuantityAfterRemove | cart/views.py:74-75 | after the deletion the removed pair has quantity 0 and every other pair keeps its quantity |
| OrderModels.StatusCodeRoundTrip | orders/models.py:10-16 | the five stored status values and the choices correspond one-to-one |
| OrderModels.PaddedValue | orders/models.py:42 | a zero-padded number reads back as that number |
| OrderModels.HexValue | orders/models.py:43 | an upper-case hex digit reads back as its value |
| OrderModels.DateText | orders/models.py:42 | `%Y%m%d` is eight digits: year, month and day |
| OrderModels.HexText | orders/models.py:43 | eight upper-case hex digits |
| OrderModels.GenerateOrderNumber | orders/models.py:40-44 | 21 characters: "ORD-", the 8-digit date, '-', 8 upper-case hex digits |
| OrderModels.DateRoundTrip | orders/models.py:42 | the date text parses back to the date |
| OrderModels.HexRoundTrip | orders/models.py:43 | the hex text parses back to the first eight UUID digits |
| OrderModels.OrderNumberRoundTrip | orders/models.py:40-44 | an order number parses back to its date and UUID prefix |
| OrderModels.OrderNumberInjective | orders/models.py:40-44 | equal order numbers come from the same date and the same first eight UUID digits |
| OrderModels.Order.constructor | orders/models.py:18-25 | defaults: no number, status pending, subtotal 0, shipping fee 5.00, total 0 |
| OrderModels.Order.Save | orders/models.py:33-38 | a number is generated only when there is none, so an existing number survives. The total becomes subtotal + shipping fee only while it is zero, so a nonzero total is kept. Nothing else changes |
| OrderModels.OrderItem.Save | orders/models.py:61-63 | the subtotal becomes quantity × price, whatever it held; quantity and price are unchanged |
| OrderSerializers.MakeItems | orders/serializers.py:47-53 | one new saved item per cart line, in order, with the line's product and quantity and the product's current price |
| OrderSerializers.SumSubtotals | orders/serializers.py:56 | the loop's sum equals the summed subtotals of the cart lines |
| OrderSerializers.PyAdd | orders/serializers.py:57 | Python `+` on money values: raises exactly for a `Decimal` with a `float`, otherwise adds the amounts, and a `Decimal` operand gives a `Decimal` |
| OrderSerializers.StoredSubtotals | orders/serializers.py:56 | the subtotals read back from the database are `Decimal`s, one per cart line, each quantity × price |
| OrderSerializers.SumOfDecimals | orders/serializers.py:56 | `sum` of a non-empty run of `Decimal`s is a `Decimal` holding their total; the empty sum is the `int` 0 |
| OrderSerializers.DecimalSubtotalPlusFloatFeeRaises | orders/serializers.py:56-57 | with the `float` default of the shipping fee, the total raises TypeError exactly when the cart is non-empty |
| OrderSerializers.DecimalFeeAddsUp | orders/serializers.py:56-57 | with a `Decimal` fee the total is the `Decimal` sum of the subtotals plus 5.00 |
| OrderSerializers.StoredSubtotalsTotal | orders/serializers.py:56 | the stored subtotals add up to the cart lines' total |
| OrderSerializers.IntendedTotalIsCartTotal | orders/serializers.py:55-58 | with a `Decimal` fee, lines 56-57 compute the cart total plus 5.00, the value `CreateOrder` stores |
| OrderSerializers.CreateOrderAsWritten | orders/serializers.py:37-58 | an empty cart is "Cart is empty". Otherwise the order (subtotal 0, total 5.00) and one item per line are written, then a server error is raised; the cart is left as it was |
| OrderSerializers.CreateOrder | orders/serializers.py:37-63 | an empty cart is "Cart is empty", with no order and no change. Otherwise the order belongs to the requester and carries the given address and notes. One item per line, subtotal = the cart total, total = subtotal + 5.00, and the requester's cart is emptied |
| OrderViews.OwnedOrders | orders/views.py:18-19 | exactly the requester's orders |
| OrderViews.OwnedOrdersConcat | orders/views.py:18-19 | the filter keeps table order: filtering two tables in turn equals filtering the joined table |
| OrderViews.TotalPagesAsWritten | orders/views.py:52 | for a positive multiple of the page size, one more than the paginator's page count; otherwise equal to it |
| OrderViews.PageCount | orders/views.py:38-42 | the paginator's page count is at least one |
| OrderViews.PageCountBounds | orders/views.py:38-42 | the pages hold every row, and the last page is non-empty when there are rows |
| OrderViews.PageSlice | orders/views.py:38-45 | a served page is a run of consecutive rows, full unless it is the last, and non-empty when there are rows |
| OrderViews.ListOrders | orders/views.py:36-52 | refused exactly for a page outside 1..page count (`page` absent means 1); a served page holds at most one page size of the requester's own orders, with total = owned count and count = page length. The i-th row is the owned order at (page - 1) * page size + i; per_page is the page size, current_page the requested page, and total_pages the paginator's page count |
| OrderViews.ServedPages | orders/views.py:36-52 | a page outside 1..page count is refused. A served page is the run of the requester's orders, in table order, starting at (page - 1) * page size: at most one page size of them, and full unless it is the last. total_pages is the paginator's page count. The meta reports total = owned count, count = page length, per_page = page size, current_page = requested page (1 when absent) |
| OrderViews.TwentyOrdersInPagesOfTen | orders/views.py:52 | 20 orders in pages of 10 report 3 pages, and page 3 is refused |
| OrderViews.FindOrder | orders/views.py:73 | the order with that id, or none exactly when no order has it |
| OrderViews.GetOrder | orders/views.py:72-77 | 404 exactly when no order has the id; a served order has that id and belongs to the requester |
| OrderViews.DetailOnlyForOwner | orders/views.py:72-77 | with unique ids: 404 exactly when no order has the id; PermissionDenied exactly when it belongs to someone else; otherwise the requester's own order |
| ProductViews.Select | products/views.py:37-47 | keeps exactly the rows that satisfy every filter |
| ProductViews.ContainsFilters | products/views.py:46-47 | one containment filter per key/value pair, in order |
| ProductViews.Listed | products/views.py:28-51 | fails exactly for a non-object `attributes`; otherwise the rows passing every filter of the chain at once, in order |
| ProductViews.GetQueryset | products/views.py:28-51 | the method's chain yields `Listed` |
| ProductViews.FilterByBase | products/views.py:37-42 | the category, min_price and max_price steps apply their filters in order |
| ProductViews.FilterByAttributes | products/views.py:46-47 | the loop applies one containment filter per pair |
| ProductViews.WhereAllConcat | products/views.py:37-47 | applying two chains one after the other is applying their concatenation |
| ProductViews.ChainIsConjunction | products/views.py:37-47 | a chain of filters keeps exactly the rows passing them all, in order |
| ProductViews.FiltersMeanMatches | products/views.py:37-47 | passing the chain means: equal category, price >= min, price <= max, every attribute pair contained |
| ProductViews.ListedAreMatches | products/views.py:28-51 | the list is exactly the matching products in catalog order, never longer than the catalog; a non-object `attributes` is the only failure |
| ProductViews.MalformedAttributesIgnored | products/views.py:44-49 | malformed JSON in `attributes` gives the list without that parameter |
| ProductViews.NoParametersListAll | products/views.py:28-51 | with no parameters every product is listed |
| ProductViews.LikeProduct | products/views.py:60-86 | a missing product is 404 with no change. Otherwise the pair is toggled, `liked` says whether the like now exists, and the count is the product's likes; the response is the like representation of the new likes |
| ProductViews.ReviewDecision | products/views.py:95-126 | success holds exactly for a delivered purchase, no earlier review and valid fields. No delivered purchase is refused first, then an existing review |
| ProductViews.CreateReview | products/views.py:89-132 | a missing product is 404 with no change. A refusal creates nothing. Success appends exactly the created review and keeps one review per pair |
| ProductViews.ViewStricterThanSerializer | reviews/serializers.py:33 | whatever this view accepts, the review serializer accepts with the same result |
| ProductViews.ShippedOrderSplitsTheViews | products/views.py:96-100 | a shipped, undelivered order lets the serializer accept and this view refuse |
| ReviewModels.ValidateFields | reviews/models.py:11-15 | valid exactly for a rating in 1..5; the comment may be absent (blank) |
| ReviewModels.AppendKeepsOneReviewPerPair | reviews/serializers.py:41-45 | adding a review for an unreviewed pair keeps at most one review per (user, product) |
| ReviewModels.ToggleTwice | reviews/views.py:40-51 | two toggles restore the like set |
| ReviewModels.ToggleFlipsOnePair | reviews/views.py:40-57 | a toggle flips exactly the (user, product) pair. The product's like count moves by one, and every other like and other products' counts are unchanged |
| ReviewModels.ReviewTable.Add | reviews/serializers.py:53-57 | the review is appended to a table without one for its pair, and the table keeps one review per pair |
| ReviewModels.LikeTable.Toggle | reviews/views.py:40-51 | the like set is toggled and `liked` says whether the like now exists |
| ReviewSerializers.Validate | reviews/serializers.py:25-47 | success holds exactly for valid fields, a delivered, processing or shipped purchase, and no earlier review. The purchase check comes before the duplicate check |
| ReviewSerializers.CreatedReview | reviews/serializers.py:49-57 | the review carries the requester, the product id of the URL and the validated rating and comment |
| ReviewSerializers.LikeRepresentation | reviews/serializers.py:65-77 | an anonymous user never likes, otherwise `liked` is membership; `likes_count` is the product's like count |
| ReviewSerializers.ToggleFlipsRepresentation | reviews/serializers.py:65-77 | after a toggle by a signed-in user, `liked` flips and `likes_count` moves by exactly one, up for a new like and down for a removed one |
| ReviewSerializers.ValidatedReviewIsFirst | reviews/serializers.py:41-57 | a validated review keeps one review per pair, and validating it again is "already reviewed" |
| ReviewViews.CreateReview | reviews/views.py:19-30 | a missing product is 404 with no change. A refusal creates nothing. Success appends exactly the created review and keeps one review per pair |
| ReviewViews.ToggleLike | reviews/views.py:36-59 | a missing product is 404 with no change. Otherwise the pair is toggled, `liked` is true exactly when it was absent, and `likes_count` is the product's likes after the toggle; the response equals `to_representation` of the new likes |
| Strings.NatToStringInjective | authentication/utils.py:186 | distinct bucket numbers render as distinct decimal strings |
| Strings.SplitJoin | authentication/views.py:144 | `' '.join(words).split()` gives the words back for non-empty, whitespace-free words |

## Left out

- Password hashing and JWT issuance are not modelled. A stored credential is the password
  itself, and `check_password` is equality. Tokens are a `TokensIssued(phone)` response.
- Sending SMS is not modelled: the Celery task, `send_sms_code`, the providers and their retries.
  So are the OTP cleanup task and `logout`/`refresh_token`.
- The clock (`time.time()`, `datetime.now()`), `random.choices` and `uuid4` are parameters.
  `now` is integer seconds for the cache and microseconds for `OTPVerification`.
- Concurrency is not modelled: every request runs alone, so atomic attempt updates are out of
  scope.
- `authorize` in authentication/views.py never calls the rate limiter. The model follows the code:
  the limiter is modelled on its own and is not a gate in front of `authorize`.
- A wrong code rewrites the entry with a full new timeout, not the remaining TTL. The model follows
  the code here too.
- `verify_code` never reads the password that `authorize` stored in the cache. It uses the
  password of the verify request.
- A newly registered user is not marked phone-verified. Nothing in the modelled code sets the flag,
  so `LoginSerializer` would refuse such a user.
- The views look users up through a `UserProfile`, the serializers through a custom user model
  with a unique `phone`. Both are one record here, kept in a table keyed by phone.
- Counter keys of a phone without a leading '+' can collide with the day and IP keys. Key
  disjointness is proved for canonical phones only.
- `format_phone_number` only ever adds '+' to a digit string that starts with "998". The nine-digit
  rule applies only to digits that start with '9' and not with "998".
- Digits are ASCII '0'..'9'. Python's `str.isdigit`, and the regex `\d` of the serializer's phone
  pattern (authentication/serializers.py:16), also accept other Unicode digits.
  Whitespace is Python's `str.isspace` set of code points.
- DRF `CharField` trimming and the generic serializer field errors are not modelled.
- A valid `attributes` JSON that is not an object makes the view raise (a server error). It is
  modelled as `None`.
- Attribute values are JSON scalars. Nested arrays and objects are not modelled.
- The search, ordering and `ProductFilter` backends of the product list are not modelled, nor
  `OrderFilter` on the order list.
- orders/pagination.py is not part of this model: the page size is a positive parameter.
  `page='last'` and non-numeric page strings are not modelled.
- cart/models.py and products/models.py are not part of this model. A line's subtotal is taken as
  its quantity times the product's current price, and `likes_count` as the number of likes.
- `OrderCreateSerializer.create` reads `user.cart.items` while the cart views use
  `CartItem(user=...)`. Both are modelled as the one per-user line table.
- The `Review` and `ProductLike` models declare no `user` field, though every view filters by
  user. They are modelled with a user.
- The products view validates the review fields after its purchase and duplicate checks. The
  reviews serializer validates them first. Each order is modelled as written.
- Integers are unbounded. The decimal fields' `max_digits=10` limit is not modelled.
- `OrderItem.subtotal` is unset until `save()`. The constructor leaves it unconstrained.
- OrderModels.GenerateOrderNumber: requires a four-digit year. `%Y` for years before 1000 is not
  modelled.
- AuthViews.VerifyCodeStep: registers with the corrected `FirstName`. For a blank name such as " " the source raises IndexError after deleting the code, where the model registers the user (first finding below).
- OrderViews.ListOrders: reports the paginator's page count as `total_pages`. The source reports `count // page_size + 1`, one too many for a positive multiple of the page size (second finding below). The `links` URLs for the next and previous page are not modelled.
- OrderSerializers.CreateOrder: models the evidently intended `Decimal` shipping fee. As written, every non-empty cart raises TypeError at orders/serializers.py:57 after the order and items were saved, and the cart is kept (third finding below; `CreateOrderAsWritten`). The in-memory Python number types are modelled for lines 56-57 only.
- ProductViews.GetQueryset: takes `category`, `min_price` and `max_price` already parsed, with prices in integer cents. A non-numeric value, which makes the Django filter raise, and decimal strings such as "10.50" are not modelled.
- AuthUtils.Render: arguments are taken as text. `str.format` renders a number through its `str`
  form, and conversions and format specs are not modelled (the templates use neither).
- AuthSerializers.ValidateLogin: `authenticate` also refuses a user whose `is_active` is false. The
  user record has no such flag, so every user is taken as active.
- ProductViews.ReviewDecision: `create_review` validates with products/serializers.py's
  `CreateReviewSerializer`, which is bound to the `Review` model of products/models.py;
  products/models.py is not part of this model. The model assumes that model has the same 1..5 rating and optional comment as
  reviews/models.py and applies `ReviewModels.ValidateFields`. The products app and the reviews app
  keep separate `Review` and `ProductLike` tables; the model passes each view its own table as a
  parameter and does not relate the two.
- Catalog.PriceOf: a missing product is priced 0. Foreign keys rule this case out in the source.

## Findings

| source | as written | input that shows it | evidently intended | confidence | as-written member | corrected member |
|---|---|---|---|---|---|---|
| authentication/views.py:143 | the first name is `name.split()[0] if name else ''`, guarded by the raw name | `name = " "`: it passes `if not password or not name` (line 129) after the code was consumed (line 109). Then `" ".split()[0]` raises IndexError | the first word, or "" for a name without words | not executed | AuthViews.FirstNameAsWritten, AuthViews.BlankNameBreaksRegistration | AuthViews.FirstName, AuthViews.NamePartsRecoverName |
| orders/views.py:52 | `total_pages = count // page_size + 1` | 20 orders in pages of 10: the meta reports 3 pages, and page 3 is refused by the paginator | the paginator's page count, ceil(count / page_size) and at least 1 | not executed | OrderViews.TotalPagesAsWritten, OrderViews.TwentyOrdersInPagesOfTen | OrderViews.PageCount, OrderViews.ServedPages |
| orders/serializers.py:57 | `order.total = order.subtotal + order.shipping_fee`, where the in-memory fee is still the `float` default `5.00` of orders/models.py:24 and the subtotal is a `Decimal` sum | any non-empty cart: `Decimal + float` raises TypeError after the order and its items were written, and the cart is not cleared | the fee as a `Decimal`, so the total is the subtotal plus 5.00 and the cart is emptied | not executed | OrderSerializers.CreateOrderAsWritten, OrderSerializers.DecimalSubtotalPlusFloatFeeRaises | OrderSerializers.CreateOrder, OrderSerializers.IntendedTotalIsCartTotal |

=== FILE: auth_models.dfy ===
/**
 * authentication/models.py: the user record and the stored one-time password with
 * its five-minute validity window.
 */
module AuthModels {

  /**
   * A user. The views look users up through a profile keyed by phone and the
   * serializers through a custom user model with a unique `phone`; both are one
   * record here, kept in a table keyed by phone, so phones are unique by construction.
   * `password` stands for the stored credential: hashing is abstracted away.
   */
  datatype User = User(
    username: string,
    phone: string,
    firstName: string,
    lastName: string,
    name: string,
    password: string,
    isPhoneVerified: bool)

  /** The user table, keyed by phone number. */
  type Users = map<string, User>

  ghost predicate KeyedByPhone(users: Users) {
    forall p :: p in users ==> users[p].phone == p
  }

  /** A freshly created user: every field given, and `is_phone_verified` at its default, false. */
  function NewUser(phone: string, username: string, password: string, firstName: string, lastName: string,
                   name: string): (u: User)
    ensures u.phone == phone && u.username == username && u.password == password
    ensures u.firstName == firstName && u.lastName == lastName && u.name == name
    ensures !u.isPhoneVerified
  {
    User(username, phone, firstName, lastName, name, password, false)
  }

  /** `user.check_password(password)`, with the credential abstracted to the password itself. */
  predicate CheckPassword(u: User, password: string) {
    u.password == password
  }

  /** `user.set_password(password)`: only the credential changes. */
  function SetPassword(u: User, password: string): (u': User)
    ensures CheckPassword(u', password)
    ensures u'.(password := u.password) == u
  {
    u.(password := password)
  }

  /** Instants are integer microseconds, the resolution of the source's timestamps. */
  const FiveMinutes: int := 300_000_000

  /** A stored OTP; `createdAt` is set from the clock when the row is created. */
  datatype OTPVerification = OTPVerification(phone: string, code: string, createdAt: int, isUsed: bool) {

    /**
     * `is_valid()`: strictly less than five minutes have passed since creation, that
     * is, the instant is before the one five minutes after `createdAt`.
     */
    predicate IsValid(now: int)
      ensures IsValid(now) <==> now < createdAt + FiveMinutes
    {
      now - createdAt < FiveMinutes
    }
  }

  /** A new OTP row: `is_used` defaults to false and the row is valid at its creation instant. */
  function NewOTPVerification(phone: string, code: string, now: int): (otp: OTPVerification)
    ensures otp.phone == phone && otp.code == code && otp.createdAt == now && !otp.isUsed
    ensures otp.IsValid(now)
  {
    OTPVerification(phone, code, now, false)
  }

  /** Valid up to, and not at, the five-minute mark. */
  lemma ValidityBoundary(otp: OTPVerification)
    ensures otp.IsValid(otp.createdAt + FiveMinutes - 1)
    ensures !otp.IsValid(otp.createdAt + FiveMinutes)
  {
  }

  /** Once invalid, an OTP stays invalid as time goes on. */
  lemma ValidityMonotone(otp: OTPVerification, t1: int, t2: int)
    requires t1 <= t2 && !otp.IsValid(t1)
    ensures !otp.IsValid(t2)
  {
  }

  /** Validity does not look at `is_used`. */
  lemma ValidityIgnoresUse(otp: OTPVerification, used: bool, now: int)
    ensures otp.(isUsed := used).IsValid(now) == otp.IsValid(now)
  {
  }
}

=== FILE: auth_serializers.dfy ===
/**
 * authentication/serializers.py: the phone-format check shared by the request
 * serializers, the login rule, and the forgot-password phone check.
 */
module AuthSerializers {
  import opened Wrappers
  import opened Strings
  import opened AuthModels
  import AuthUtils

  /** '+' followed by 10 to 15 digits. */
  predicate PlusTenToFifteenDigits(s: string) {
    11 <= |s| <= 16 && s[0] == '+' && AllDigits(s[1..])
  }

  /**
   * `re.match(r'^\+\d{10,15}$', value)`: Python's `$` also matches just before a
   * final newline, so one trailing "\n" is accepted.
   */
  predicate MatchesPhonePattern(s: string) {
    PlusTenToFifteenDigits(s) || (|s| > 0 && s[|s| - 1] == '\n' && PlusTenToFifteenDigits(s[..|s| - 1]))
  }

  datatype ValidationError =
    | InvalidPhoneFormat           // "Invalid phone number format"
    | UserWithPhoneNotFound        // "User with this phone number not found"
    | InvalidCredentials           // "Invalid credentials"
    | PhoneNotVerified             // "Phone number not verified"
    | PhoneAndPasswordRequired     // "Phone and password required"

  /** `validate_phone` of the authorize, verify and reset-password serializers. */
  function ValidatePhone(value: string): (r: Result<string, ValidationError>)
    ensures r.Success? <==> MatchesPhonePattern(value)
    ensures r.Success? ==> r.value == value
    ensures r.Failure? ==> r.error == InvalidPhoneFormat
  {
    if MatchesPhonePattern(value) then Success(value) else Failure(InvalidPhoneFormat)
  }

  /** A '+' followed by digits formats to itself unless there are exactly nine digits. */
  lemma PlusDigitsFormatUnchanged(s: string, d: string)
    requires s == "+" + d && AllDigits(d) && |d| != 9
    ensures AuthUtils.FormatPhoneNumber(s) == s
  {
    DigitsOfConcat("+", d);
    AuthUtils.FormatOfNonNineDigits(s);
  }

  /** Every phone the serializers accept is also accepted by `validate_phone_number`. */
  lemma PatternImpliesUtilValid(s: string)
    requires MatchesPhonePattern(s)
    ensures AuthUtils.ValidatePhoneNumber(s)
  {
    if PlusTenToFifteenDigits(s) {
      PlusDigitsFormatUnchanged(s, s[1..]);
    } else {
      var core := s[..|s| - 1];
      assert s == core + "\n";
      PlusDigitsFormatUnchanged(core, core[1..]);
      DigitsOfConcat(core, "\n");
      assert DigitsOf(s) == DigitsOf(core);
    }
  }

  /**
   * ... but not the other way round: '+' and nine digits passes the utility, with or
   * without the inserted country code, and fails here.
   */
  lemma PlusNineDigits(d: string)
    requires AllDigits(d) && |d| == 9
    ensures AuthUtils.ValidatePhoneNumber("+" + d)
    ensures !MatchesPhonePattern("+" + d)
  {
    var s := "+" + d;
    DigitsOfConcat("+", d);
    assert DigitsOf(s) == d;
    assert s[|s| - 1] == d[8];
  }

  /** `VerifySerializer`'s fields: `password` and `name` are optional. */
  datatype VerifyRequest = VerifyRequest(phone: string, code: string, password: Option<string>, name: Option<string>)

  /** `ResetPasswordSerializer`'s fields, all required. */
  datatype ResetRequest = ResetRequest(phone: string, code: string, newPassword: string)

  /** `VerifySerializer`: only the phone format is checked; the other fields pass as given. */
  function ValidateVerifyRequest(req: VerifyRequest): (r: Result<VerifyRequest, ValidationError>)
    ensures r.Success? <==> MatchesPhonePattern(req.phone)
    ensures r.Success? ==> r.value == req
    ensures r.Failure? ==> r.error == InvalidPhoneFormat
  {
    match ValidatePhone(req.phone)
    case Success(_) => Success(req)
    case Failure(e) => Failure(e)
  }

  /** `ResetPasswordSerializer`: only the phone format is checked; the other fields pass as given. */
  function ValidateResetRequest(req: ResetRequest): (r: Result<ResetRequest, ValidationError>)
    ensures r.Success? <==> MatchesPhonePattern(req.phone)
    ensures r.Success? ==> r.value == req
    ensures r.Failure? ==> r.error == InvalidPhoneFormat
  {
    match ValidatePhone(req.phone)
    case Success(_) => Success(req)
    case Failure(e) => Failure(e)
  }

  /**
   * `LoginSerializer.validate`: both fields are needed; then `authenticate` (the
   * user with that phone and password) must succeed before the verification flag
   * is looked at.
   */
  function ValidateLogin(users: Users, phone: Option<string>, password: Option<string>): (r: Result<User, ValidationError>)
    ensures !(Given(phone) && Given(password)) <==> r == Failure(PhoneAndPasswordRequired)
    ensures Given(phone) && Given(password) && !(phone.value in users && CheckPassword(users[phone.value], password.value))
            ==> r == Failure(InvalidCredentials)
    ensures r.Success? <==>
      && Given(phone) && Given(password) && phone.value in users
      && CheckPassword(users[phone.value], password.value) && users[phone.value].isPhoneVerified
    ensures Given(phone) && Given(password) && phone.value in users
            && CheckPassword(users[phone.value], password.value) && !users[phone.value].isPhoneVerified
            ==> r == Failure(PhoneNotVerified)
    ensures r.Success? ==> r.value == users[phone.value]
  {
    if Given(phone) && Given(password) then
      if !(phone.value in users && CheckPassword(users[phone.value], password.value)) then Failure(InvalidCredentials)
      else if !users[phone.value].isPhoneVerified then Failure(PhoneNotVerified)
      else Success(users[phone.value])
    else
      Failure(PhoneAndPasswordRequired)
  }

  /** `ForgotPasswordSerializer.validate_phone`: the format first, then the user's existence. */
  function ValidateForgotPasswordPhone(users: Users, value: string): (r: Result<string, ValidationError>)
    ensures !MatchesPhonePattern(value) ==> r == Failure(InvalidPhoneFormat)
    ensures MatchesPhonePattern(value) && value !in users ==> r == Failure(UserWithPhoneNotFound)
    ensures r.Success? <==> MatchesPhonePattern(value) && value in users
    ensures r.Success? ==> r.value == value
  {
    if !MatchesPhonePattern(value) then Failure(InvalidPhoneFormat)
    else if value !in users then Failure(UserWithPhoneNotFound)
    else Success(value)
  }

  /** A malformed phone is rejected the same way whatever the user table holds. */
  lemma MalformedPhoneNeverLooksUp(users1: Users, users2: Users, value: string)
    requires !MatchesPhonePattern(value)
    ensures ValidateForgotPasswordPhone(users1, value) == ValidateForgotPasswordPhone(users2, value)
  {
  }
}

=== FILE: auth_utils.dfy ===
/**
 * authentication/utils.py: verification codes, phone-number formatting, validation
 * and masking, SMS templates, and the fixed-window SMS rate limiter that keeps its
 * counters in the shared volatile cache.
 */
module AuthUtils {
  import opened Wrappers
  import opened Strings
  import opened VolatileCache

  // ---------------------------------------------------------------------------
  // Verification codes

  const DefaultCodeLength: nat := 6

  /** One outcome of `random.choices(string.digits)`: an index into "0123456789". */
  type Draw = n: nat | n < 10

  /**
   * `generate_verification_code(length)`; `draws[i]` is the i-th random choice,
   * so the randomness is a parameter.
   */
  function GenerateVerificationCode(length: nat, draws: seq<Draw>): (code: string)
    requires |draws| >= length
    ensures |code| == length && AllDigits(code)
  {
    seq(length, i requires 0 <= i < length => DigitChar(draws[i]))
  }

  /** Every digit string of the requested length is a possible code. */
  lemma EveryDigitStringIsACode(s: string)
    requires AllDigits(s)
    ensures GenerateVerificationCode(|s|, seq(|s|, i requires 0 <= i < |s| => DigitValue(s[i]) as Draw)) == s
  {
  }

  // ---------------------------------------------------------------------------
  // Phone numbers

  /**
   * `format_phone_number`: keep the digits, then prefix '+', or '+998' for a
   * nine-digit number that starts with '9' but not with "998". (Digits never
   * start with '+', so the source's last branch always prepends '+'.)
   */
  function FormatPhoneNumber(phone: string): (r: string)
    ensures |r| >= 1 && r[0] == '+' && AllDigits(r[1..])
    ensures r[1..] == DigitsOf(phone) || r[1..] == "998" + DigitsOf(phone)
  {
    var d := DigitsOf(phone);
    if "998" <= d then "+" + d
    else if |d| == 9 && d[0] == '9' then "+998" + d
    else "+" + d
  }

  /** "+998" is inserted exactly for nine digits starting with '9' and not with "998". */
  lemma FormatInsertsCountryCode(phone: string)
    ensures var d := DigitsOf(phone);
      FormatPhoneNumber(phone) == if |d| == 9 && d[0] == '9' && !("998" <= d) then "+998" + d else "+" + d
  {
  }

  lemma DigitsOfPlus(x: string)
    requires AllDigits(x)
    ensures DigitsOf("+" + x) == x
  {
    assert ("+" + x)[1..] == x;
  }

  /** Formatting an already formatted number changes nothing. */
  lemma FormatIdempotent(phone: string)
    ensures FormatPhoneNumber(FormatPhoneNumber(phone)) == FormatPhoneNumber(phone)
  {
    var d := DigitsOf(phone);
    var f := FormatPhoneNumber(phone);
    assert f == "+" + f[1..];
    DigitsOfPlus(f[1..]);
    if f[1..] != d {
      assert f[1..] == "998" + d;
      assert "998" <= f[1..];
    }
  }

  /** A number whose digit count is not nine is only prefixed with '+'. */
  lemma FormatOfNonNineDigits(phone: string)
    requires |DigitsOf(phone)| != 9
    ensures FormatPhoneNumber(phone) == "+" + DigitsOf(phone)
  {
  }

  /** `validate_phone_number`: format, then require '+' and 9 to 15 digits after it. */
  function ValidatePhoneNumber(phone: string): (ok: bool)
    ensures ok <==> 10 <= |FormatPhoneNumber(phone)| <= 16
    ensures ok <==> 9 <= |FormatPhoneNumber(phone)| - 1 <= 15
  {
    var p := FormatPhoneNumber(phone);
    if p[0] == '+' && 10 <= |p| <= 16 then
      var digits := p[1..];
      |digits| > 0 && AllDigits(digits)
    else
      false
  }

  function Stars(n: nat): (s: string)
    ensures |s| == n && forall i :: 0 <= i < n ==> s[i] == '*'
  {
    seq(n, _ => '*')
  }

  /** `mask_phone_number`: keep the first and last four characters, star the middle. */
  function MaskPhoneNumber(phone: string): (r: string)
    ensures |phone| < 8 ==> r == phone
    ensures |r| == |phone|
    ensures |phone| >= 8 ==>
      && r[..4] == phone[..4]
      && r[|r| - 4..] == phone[|phone| - 4..]
      && forall i :: 4 <= i < |r| - 4 ==> r[i] == '*'
  {
    if |phone| < 8 then phone
    else phone[..4] + Stars(|phone| - 8) + phone[|phone| - 4..]
  }

  // ---------------------------------------------------------------------------
  // SMS templates

  /** A template is literal text with `{name}` replacement fields between. */
  datatype Piece = Text(text: string) | Field(name: string)

  const SmsTemplates: map<string, seq<Piece>> := map[
    "verification" := [Text("Tasdiqlash kodi: "), Field("code"), Text(". Bu kodni hech kimga bermang!")],
    "password_reset" := [Text("Parolni tiklash kodi: "), Field("code"), Text(". Bu kodni hech kimga bermang!")],
    "welcome" := [Text("Xush kelibsiz! Hisobingiz muvaffaqiyatli yaratildi.")],
    "order_confirmation" := [Text("Buyurtmangiz #"), Field("order_number"), Text(" qabul qilindi. Jami: "),
                             Field("total"), Text(" so'm")]
  ]

  function FieldNames(pieces: seq<Piece>): set<string> {
    if pieces == [] then {}
    else (if pieces[0].Field? then {pieces[0].name} else {}) + FieldNames(pieces[1..])
  }

  /** `template.format(**kwargs)`; `None` is the `KeyError` of a field without an argument. */
  function Render(pieces: seq<Piece>, kwargs: map<string, string>): (r: Option<string>)
    ensures r.Some? <==> FieldNames(pieces) <= kwargs.Keys
  {
    if pieces == [] then Some("")
    else
      var rest := Render(pieces[1..], kwargs);
      match pieces[0]
      case Text(t) => if rest.Some? then Some(t + rest.value) else None
      case Field(n) => if n in kwargs && rest.Some? then Some(kwargs[n] + rest.value) else None
  }

  /**
   * Formatting is piecewise: a template made of two parts renders as the first
   * part's text followed by the second's, and fails when either part fails.
   */
  lemma {:induction false} RenderConcat(a: seq<Piece>, b: seq<Piece>, kwargs: map<string, string>)
    ensures Render(a + b, kwargs).Some? <==> Render(a, kwargs).Some? && Render(b, kwargs).Some?
    ensures Render(a + b, kwargs).Some? ==>
      Render(a + b, kwargs).value == Render(a, kwargs).value + Render(b, kwargs).value
  {
    if a == [] {
      assert a + b == b;
    } else {
      assert (a + b)[0] == a[0];
      assert (a + b)[1..] == a[1..] + b;
      RenderConcat(a[1..], b, kwargs);
    }
  }

  /** Literal text renders as itself, and a field as its argument. */
  lemma PieceText(p: Piece, kwargs: map<string, string>)
    ensures p.Text? ==> Render([p], kwargs) == Some(p.text)
    ensures p.Field? ==> Render([p], kwargs) == if p.name in kwargs then Some(kwargs[p.name]) else None
  {
    assert [p][1..] == [];
    assert Render([p][1..], kwargs) == Some("");
    match p
    case Text(t) => assert t + "" == t;
    case Field(n) => if n in kwargs { assert kwargs[n] + "" == kwargs[n]; }
  }

  /** Text, one field, text: the template's text with the argument in place of the field. */
  lemma {:induction false} RenderTextFieldText(before: string, field: string, after: string, kwargs: map<string, string>)
    requires field in kwargs
    ensures Render([Text(before), Field(field), Text(after)], kwargs) == Some(before + kwargs[field] + after)
  {
    var t := [Text(before), Field(field), Text(after)];
    assert t == [Text(before)] + ([Field(field)] + [Text(after)]);
    PieceText(Text(before), kwargs);
    PieceText(Field(field), kwargs);
    PieceText(Text(after), kwargs);
    RenderConcat([Field(field)], [Text(after)], kwargs);
    assert Render([Field(field)] + [Text(after)], kwargs) == Some(kwargs[field] + after);
    RenderConcat([Text(before)], [Field(field)] + [Text(after)], kwargs);
    assert Render(t, kwargs) == Some(before + (kwargs[field] + after));
    assert before + (kwargs[field] + after) == before + kwargs[field] + after;
  }

  /** The login code message. */
  lemma VerificationText(kwargs: map<string, string>)
    requires "code" in kwargs
    ensures GetSmsTemplate("verification", kwargs) == Some("Tasdiqlash kodi: " + kwargs["code"] + ". Bu kodni hech kimga bermang!")
  {
    RenderTextFieldText("Tasdiqlash kodi: ", "code", ". Bu kodni hech kimga bermang!", kwargs);
  }

  /** The password reset code message. */
  lemma PasswordResetText(kwargs: map<string, string>)
    requires "code" in kwargs
    ensures GetSmsTemplate("password_reset", kwargs)
            == Some("Parolni tiklash kodi: " + kwargs["code"] + ". Bu kodni hech kimga bermang!")
  {
    RenderTextFieldText("Parolni tiklash kodi: ", "code", ". Bu kodni hech kimga bermang!", kwargs);
  }

  /** The welcome message has no fields: it renders for any arguments. */
  lemma WelcomeText(kwargs: map<string, string>)
    ensures GetSmsTemplate("welcome", kwargs) == Some("Xush kelibsiz! Hisobingiz muvaffaqiyatli yaratildi.")
  {
    PieceText(Text("Xush kelibsiz! Hisobingiz muvaffaqiyatli yaratildi."), kwargs);
  }

  /** The order confirmation: the order number and the total in their places. */
  lemma OrderConfirmationText(kwargs: map<string, string>)
    requires "order_number" in kwargs && "total" in kwargs
    ensures GetSmsTemplate("order_confirmation", kwargs)
            == Some("Buyurtmangiz #" + kwargs["order_number"] + " qabul qilindi. Jami: " + kwargs["total"] + " so'm")
  {
    var t := SmsTemplates["order_confirmation"];
    var head := [Text("Buyurtmangiz #"), Field("order_number"), Text(" qabul qilindi. Jami: ")];
    var tail := [Field("total"), Text(" so'm")];
    assert t == head + tail;
    RenderTextFieldText("Buyurtmangiz #", "order_number", " qabul qilindi. Jami: ", kwargs);
    PieceText(Field("total"), kwargs);
    PieceText(Text(" so'm"), kwargs);
    RenderConcat([Field("total")], [Text(" so'm")], kwargs);
    assert Render(tail, kwargs) == Some(kwargs["total"] + " so'm");
    RenderConcat(head, tail, kwargs);
    var n, total := kwargs["order_number"], kwargs["total"];
    assert Render(t, kwargs) == Some(("Buyurtmangiz #" + n + " qabul qilindi. Jami: ") + (total + " so'm"));
    assert ("Buyurtmangiz #" + n + " qabul qilindi. Jami: ") + (total + " so'm")
        == "Buyurtmangiz #" + n + " qabul qilindi. Jami: " + total + " so'm";
  }

  /** `get_sms_template(name, **kwargs)`; `None` stands for the `KeyError` a missing argument raises. */
  function GetSmsTemplate(name: string, kwargs: map<string, string>): (r: Option<string>)
    ensures name !in SmsTemplates ==> r == Some("")
    ensures name in SmsTemplates ==> (r.Some? <==> FieldNames(SmsTemplates[name]) <= kwargs.Keys)
  {
    if name in SmsTemplates then Render(SmsTemplates[name], kwargs) else Some("")
  }

  // ---------------------------------------------------------------------------
  // SMS rate limiting

  const MaxPerPhonePerHour: nat := 5
  const MaxPerPhonePerDay: nat := 20
  const MaxPerIpPerHour: nat := 50
  const Hour: nat := 3600
  const Day: nat := 86400

  function HourKey(phone: string, now: nat): string {
    "sms_rate_" + phone + "_" + NatToString(now / Hour)
  }

  function DayKey(phone: string, now: nat): string {
    "sms_rate_day_" + phone + "_" + NatToString(now / Day)
  }

  function IpHourKey(ip: string, now: nat): string {
    "sms_rate_ip_" + ip + "_" + NatToString(now / Hour)
  }

  /** `cache.get(key, 0)` for a counter. */
  function CountOf(v: Option<Value>): nat {
    if v.Some? && v.value.Count? then v.value.n else 0
  }

  function CountAt(slots: map<string, Slot>, key: string, now: nat): nat {
    CountOf(Live(slots, key, now))
  }

  /**
   * `check_sms_rate_limit(phone, ip_address)` at instant `now` (`int(time.time())`):
   * hourly phone limit, then daily phone limit, then (only for a given IP) the
   * hourly IP limit; the first one reached decides the reason.
   */
  function CheckSmsRateLimit(slots: map<string, Slot>, phone: string, ip: Option<string>, now: nat): (r: (bool, string))
    ensures r.0 <==>
      && CountAt(slots, HourKey(phone, now), now) < MaxPerPhonePerHour
      && CountAt(slots, DayKey(phone, now), now) < MaxPerPhonePerDay
      && (Given(ip) ==> CountAt(slots, IpHourKey(ip.value, now), now) < MaxPerIpPerHour)
    ensures r.0 ==> r.1 == "OK"
    ensures r.1 == "Hourly limit exceeded" <==> CountAt(slots, HourKey(phone, now), now) >= MaxPerPhonePerHour
    ensures r.1 == "Daily limit exceeded" <==>
      CountAt(slots, HourKey(phone, now), now) < MaxPerPhonePerHour
      && CountAt(slots, DayKey(phone, now), now) >= MaxPerPhonePerDay
    ensures r.1 == "IP hourly limit exceeded" <==>
      && CountAt(slots, HourKey(phone, now), now) < MaxPerPhonePerHour
      && CountAt(slots, DayKey(phone, now), now) < MaxPerPhonePerDay
      && Given(ip) && CountAt(slots, IpHourKey(ip.value, now), now) >= MaxPerIpPerHour
  {
    if CountAt(slots, HourKey(phone, now), now) >= MaxPerPhonePerHour then (false, "Hourly limit exceeded")
    else if CountAt(slots, DayKey(phone, now), now) >= MaxPerPhonePerDay then (false, "Daily limit exceeded")
    else if Given(ip) && CountAt(slots, IpHourKey(ip.value, now), now) >= MaxPerIpPerHour then
      (false, "IP hourly limit exceeded")
    else (true, "OK")
  }

  /** `cache.set(key, cache.get(key, 0) + 1, timeout=timeout)`. */
  function Bump(slots: map<string, Slot>, key: string, timeout: nat, now: nat): map<string, Slot> {
    slots[key := Slot(Count(CountAt(slots, key, now) + 1), now + timeout)]
  }

  /** The cache after `increment_sms_rate_limit(phone, ip_address)` at instant `now`. */
  function Incremented(slots: map<string, Slot>, phone: string, ip: Option<string>, now: nat): (r: map<string, Slot>)
    ensures slots.Keys <= r.Keys
    ensures HourKey(phone, now) in r && DayKey(phone, now) in r
    ensures Given(ip) ==> IpHourKey(ip.value, now) in r
    ensures r.Keys <= slots.Keys + {HourKey(phone, now), DayKey(phone, now)}
                      + (if Given(ip) then {IpHourKey(ip.value, now)} else {})
  {
    var s := Bump(Bump(slots, HourKey(phone, now), Hour, now), DayKey(phone, now), Day, now);
    if Given(ip) then Bump(s, IpHourKey(ip.value, now), Hour, now) else s
  }

  method IncrementSmsRateLimit(cache: Cache, phone: string, ip: Option<string>, now: nat)
    modifies cache
    ensures cache.slots == Incremented(old(cache.slots), phone, ip, now)
  {
    var hourKey := HourKey(phone, now);
    var dayKey := DayKey(phone, now);
    ghost var before := cache.slots;
    cache.Set(hourKey, Count(CountOf(cache.Get(hourKey, now)) + 1), Hour, now);
    assert cache.slots == Bump(before, hourKey, Hour, now);
    cache.Set(dayKey, Count(CountOf(cache.Get(dayKey, now)) + 1), Day, now);
    assert cache.slots == Bump(Bump(before, hourKey, Hour, now), dayKey, Day, now);
    if Given(ip) {
      var ipHourKey := IpHourKey(ip.value, now);
      cache.Set(ipHourKey, Count(CountOf(cache.Get(ipHourKey, now)) + 1), Hour, now);
    }
  }

  /** A canonical phone number starts with '+'. */
  predicate Canonical(phone: string) {
    |phone| > 0 && phone[0] == '+'
  }

  /**
   * For a phone that starts with '+', the three counter keys of any two instants
   * differ in their tenth character unless they are of the same kind.
   */
  lemma CounterKeysDisjoint(phone: string, ip: string, t1: nat, t2: nat)
    requires Canonical(phone)
    ensures HourKey(phone, t1) != DayKey(phone, t2)
    ensures HourKey(phone, t1) != IpHourKey(ip, t2)
    ensures DayKey(phone, t1) != IpHourKey(ip, t2)
  {
    assert HourKey(phone, t1)[9] == '+';
    assert DayKey(phone, t2)[9] == 'd' && DayKey(phone, t1)[9] == 'd';
    assert IpHourKey(ip, t2)[9] == 'i';
  }

  /** Counter keys of the same kind and phone are equal only within one bucket. */
  lemma HourKeyInjective(phone: string, t1: nat, t2: nat)
    requires HourKey(phone, t1) == HourKey(phone, t2)
    ensures t1 / Hour == t2 / Hour
  {
    var p := "sms_rate_" + phone + "_";
    assert HourKey(phone, t1)[|p|..] == NatToString(t1 / Hour);
    assert HourKey(phone, t2)[|p|..] == NatToString(t2 / Hour);
    NatToStringInjective(t1 / Hour, t2 / Hour);
  }

  /**
   * `increment_sms_rate_limit` adds exactly one to the phone's hour and day
   * counters, and to the IP's hour counter only when an IP is given; every other
   * key keeps its value and timeout.
   */
  lemma IncrementAddsOne(slots: map<string, Slot>, phone: string, ip: Option<string>, now: nat)
    requires Canonical(phone)
    ensures var s := Incremented(slots, phone, ip, now);
      && CountAt(s, HourKey(phone, now), now) == CountAt(slots, HourKey(phone, now), now) + 1
      && CountAt(s, DayKey(phone, now), now) == CountAt(slots, DayKey(phone, now), now) + 1
      && (Given(ip) ==> CountAt(s, IpHourKey(ip.value, now), now) == CountAt(slots, IpHourKey(ip.value, now), now) + 1)
      && (forall k ::
            (k != HourKey(phone, now) && k != DayKey(phone, now) && (Given(ip) ==> k != IpHourKey(ip.value, now)))
            ==> (k in s <==> k in slots) && (k in s ==> s[k] == slots[k]))
  {
    if Given(ip) {
      CounterKeysDisjoint(phone, ip.value, now, now);
    } else {
      CounterKeysDisjoint(phone, "", now, now);
    }
  }

  /** An increment made in another hour bucket is invisible to the hourly check. */
  lemma OtherHourIgnored(slots: map<string, Slot>, phone: string, ip: Option<string>, t1: nat, t2: nat)
    requires Canonical(phone)
    requires t1 / Hour != t2 / Hour
    ensures CountAt(Incremented(slots, phone, ip, t1), HourKey(phone, t2), t2) == CountAt(slots, HourKey(phone, t2), t2)
  {
    if HourKey(phone, t1) == HourKey(phone, t2) {
      HourKeyInjective(phone, t1, t2);
    }
    CounterKeysDisjoint(phone, if Given(ip) then ip.value else "", t2, t1);
  }

  /** The cache after `increment_sms_rate_limit` at each of `times`, in order. */
  function IncrementAll(slots: map<string, Slot>, phone: string, ip: Option<string>, times: seq<nat>): map<string, Slot>
    decreases |times|
  {
    if times == [] then slots else IncrementAll(Incremented(slots, phone, ip, times[0]), phone, ip, times[1..])
  }

  /** The hour counter at `key` reads `c` at every instant up to `now`. */
  ghost predicate HoursCount(slots: map<string, Slot>, key: string, c: nat, now: nat) {
    if key in slots then slots[key].value == Count(c) && now < slots[key].expiresAt else c == 0
  }

  lemma {:induction false} IncrementsAccumulate(slots: map<string, Slot>, phone: string, ip: Option<string>,
                                                times: seq<nat>, now: nat, c: nat)
    requires Canonical(phone)
    requires forall i :: 0 <= i < |times| ==> times[i] <= now && times[i] / Hour == now / Hour
    requires HoursCount(slots, HourKey(phone, now), c, now)
    ensures HoursCount(IncrementAll(slots, phone, ip, times), HourKey(phone, now), c + |times|, now)
    decreases |times|
  {
    if times != [] {
      var t := times[0];
      var key := HourKey(phone, now);
      assert HourKey(phone, t) == key;
      assert CountAt(slots, key, t) == c;
      CounterKeysDisjoint(phone, if Given(ip) then ip.value else "", now, t);
      var s := Incremented(slots, phone, ip, t);
      assert s[key] == Slot(Count(c + 1), t + Hour);
      SameHour(t, now);
      IncrementsAccumulate(s, phone, ip, times[1..], now, c + 1);
    }
  }

  /** Two instants of one hour bucket lie less than an hour apart. */
  lemma SameHour(t: nat, now: nat)
    requires t <= now && t / Hour == now / Hour
    ensures now < t + Hour
  {
  }

  /**
   * Starting from an empty hour bucket, five sends within that hour make the next
   * check fail with "Hourly limit exceeded".
   */
  lemma FiveSendsFillTheHour(slots: map<string, Slot>, phone: string, ip: Option<string>, times: seq<nat>, now: nat)
    requires Canonical(phone)
    requires HourKey(phone, now) !in slots
    requires |times| == MaxPerPhonePerHour
    requires forall i :: 0 <= i < |times| ==> times[i] <= now && times[i] / Hour == now / Hour
    ensures CheckSmsRateLimit(IncrementAll(slots, phone, ip, times), phone, ip, now) == (false, "Hourly limit exceeded")
  {
    IncrementsAccumulate(slots, phone, ip, times, now, 0);
  }

  /** Fewer than five sends in the hour never trip the hourly limit. */
  lemma FewerSendsKeepTheHourOpen(slots: map<string, Slot>, phone: string, ip: Option<string>, times: seq<nat>, now: nat)
    requires Canonical(phone)
    requires HourKey(phone, now) !in slots
    requires |times| < MaxPerPhonePerHour
    requires forall i :: 0 <= i < |times| ==> times[i] <= now && times[i] / Hour == now / Hour
    ensures CheckSmsRateLimit(IncrementAll(slots, phone, ip, times), phone, ip, now).1 != "Hourly limit exceeded"
  {
    IncrementsAccumulate(slots, phone, ip, times, now, 0);
  }
}

=== FILE: auth_views.dfy ===
/**
 * authentication/views.py: the OTP flows. `authorize` and `forgot_password` issue a
 * pending entry in the volatile cache; `verify_code` and `reset_password` consume it
 * (expired, too many attempts, wrong code, or match), and a matching `verify_code`
 * then logs the user in or registers them. `login` checks a password.
 *
 * Each view is a method of `AuthService` (the cache and the user table it changes)
 * whose postcondition ties the new state and the response to a step function of the
 * old state; the lemmas below state what those steps promise.
 */
module AuthViews {
  import opened Wrappers
  import opened Strings
  import opened VolatileCache
  import opened AuthModels
  import AuthUtils

  /** Cache timeouts, in seconds. */
  const CodeTimeout: nat := 300
  const ResetTimeout: nat := 600
  const MaxAttempts: nat := 3

  function CodeKey(phone: string): string {
    "sms_code_" + phone
  }

  function ResetKey(phone: string): string {
    "reset_code_" + phone
  }

  /** A key of one of the two OTP namespaces. */
  predicate OtpKey(key: string) {
    "sms_code_" <= key || "reset_code_" <= key
  }

  /** Pending entries live exactly under OTP keys; everything else is a counter. */
  ghost predicate WellTyped(slots: map<string, Slot>) {
    forall k :: k in slots ==> (slots[k].value.Pending? <==> OtpKey(k))
  }

  datatype ErrorCode =
    | InvalidRequest
    | CodeExpired
    | TooManyAttempts
    | InvalidCode
    | InvalidCredentials
    | RegistrationDataRequired
    | UserNotFound

  datatype Response =
    | CodeSent(phone: string)          // "Verification code sent" / "Password reset code sent"
    | TokensIssued(phone: string)      // access and refresh tokens for the user with this phone
    | PasswordResetDone
    | Error(code: ErrorCode)

  /** What the views read and write: the cache and the user table. */
  datatype State = State(slots: map<string, Slot>, users: Users)

  // ---------------------------------------------------------------------------
  // Names of a registering user

  /**
   * `name.split()[0] if name else ''` as written: `None` is the `IndexError` raised
   * for a non-empty name made only of whitespace.
   */
  function FirstNameAsWritten(name: string): (r: Option<string>)
    ensures r.None? <==> name != "" && Split(name) == []
  {
    if name == "" then Some("")
    else if |Split(name)| > 0 then Some(Split(name)[0])
    else None
  }

  /** The first word of the name, or "" when it has none (the guard's evident intent). */
  function FirstName(name: string): (r: string)
    ensures NoSpace(r)
    ensures FirstNameAsWritten(name).Some? ==> r == FirstNameAsWritten(name).value
    ensures r == "" <==> Split(name) == []
    ensures r != "" ==> Split(r) == [r]
  {
    if |Split(name)| > 0 then
      SplitJoin(Split(name)[..1]);
      Split(name)[0]
    else ""
  }

  /** `' '.join(name.split()[1:]) if len(name.split()) > 1 else ''`: every word after the first. */
  function LastName(name: string): (r: string)
    ensures |Split(name)| <= 1 ==> r == ""
    ensures |Split(name)| > 1 ==> Split(r) == Split(name)[1..]
  {
    if |Split(name)| > 1 then
      SplitJoin(Split(name)[1..]);
      JoinWithSpace(Split(name)[1..])
    else ""
  }

  /**
   * The user `verify_code` creates: username and phone are the phone number, and the
   * first and last names together hold exactly the words of the full name.
   */
  function RegisteredUser(phone: string, password: string, name: string): (u: User)
    ensures u.username == phone && u.phone == phone && CheckPassword(u, password) && u.name == name
    ensures u.firstName == FirstName(name) && u.lastName == LastName(name)
    ensures Split(u.firstName) + Split(u.lastName) == Split(name)
    ensures !u.isPhoneVerified
  {
    var words := Split(name);
    assert words != [] ==> words == [words[0]] + words[1..];
    NewUser(phone, phone, password, FirstName(name), LastName(name), name)
  }

  /** The first and last names hold exactly the words of the name, split at the first word. */
  lemma NamePartsRecoverName(name: string)
    requires Split(name) != []
    ensures Split(FirstName(name)) == Split(name)[..1]
    ensures Split(LastName(name)) == Split(name)[1..]
  {
    var words := Split(name);
    SplitJoin(words[..1]);
    assert JoinWithSpace(words[..1]) == words[0];
    if |words| > 1 {
      SplitJoin(words[1..]);
    }
  }

  /** A name of blanks passes `if not name` yet makes `name.split()[0]` raise. */
  lemma BlankNameBreaksRegistration()
    ensures Given(Some(" ")) && FirstNameAsWritten(" ") == None
  {
    assert Split(" ") == Split(" "[1..]);
  }

  /**
   * A name written as words joined by single spaces registers as its first word
   * and the remaining words joined by single spaces.
   */
  lemma JoinedNameSplits(words: seq<string>)
    requires |words| >= 1
    requires forall i :: 0 <= i < |words| ==> words[i] != [] && NoSpace(words[i])
    ensures FirstName(JoinWithSpace(words)) == words[0]
    ensures LastName(JoinWithSpace(words)) == JoinWithSpace(words[1..])
  {
    SplitJoin(words);
  }

  // ---------------------------------------------------------------------------
  // The steps

  /** `authorize`: store `{code, password, attempts: 0}` under the phone's code key for 300 s. */
  function AuthorizeStep(st: State, phone: Option<string>, password: Option<string>, code: string, now: nat)
    : (r: (State, Response))
    ensures WellTyped(st.slots) ==> WellTyped(r.0.slots)
    ensures !Given(phone) ==> r == (st, Error(InvalidRequest))
  {
    if !Given(phone) then (st, Error(InvalidRequest))
    else
      var key := CodeKey(phone.value);
      assert OtpKey(key);
      (st.(slots := st.slots[key := Slot(Pending(code, password, 0), now + CodeTimeout)]), CodeSent(phone.value))
  }

  /**
   * `verify_code`. The account branch uses the password of THIS request; the one
   * stored by `authorize` is never read.
   */
  function VerifyCodeStep(st: State, phone: Option<string>, code: Option<string>, password: Option<string>,
                          name: Option<string>, now: nat): (r: (State, Response))
    requires WellTyped(st.slots)
    ensures WellTyped(r.0.slots)
    ensures !Given(phone) || !Given(code) ==> r == (st, Error(InvalidRequest))
  {
    if !Given(phone) || !Given(code) then (st, Error(InvalidRequest))
    else
      var key := CodeKey(phone.value);
      assert OtpKey(key);
      var cached := Live(st.slots, key, now);
      if cached.None? then (st, Error(CodeExpired))
      else
        var entry := cached.value;
        if entry.attempts >= MaxAttempts then (st.(slots := st.slots - {key}), Error(TooManyAttempts))
        else if entry.code != code.value then
          (st.(slots := st.slots[key := Slot(entry.(attempts := entry.attempts + 1), now + CodeTimeout)]), Error(InvalidCode))
        else
          var slots := st.slots - {key};
          if phone.value in st.users then
            if Given(password) && !CheckPassword(st.users[phone.value], password.value) then
              (State(slots, st.users), Error(InvalidCredentials))
            else
              (State(slots, st.users), TokensIssued(phone.value))
          else if !Given(password) || !Given(name) then
            (State(slots, st.users), Error(RegistrationDataRequired))
          else
            (State(slots, st.users[phone.value := RegisteredUser(phone.value, password.value, name.value)]),
             TokensIssued(phone.value))
  }

  /** `login`: an unknown phone and a wrong password give the same answer. */
  function Login(users: Users, phone: Option<string>, password: Option<string>): (r: Response)
    ensures !(Given(phone) && Given(password)) ==> r == Error(InvalidRequest)
    ensures r.TokensIssued? <==>
      Given(phone) && Given(password) && phone.value in users && CheckPassword(users[phone.value], password.value)
    ensures r.TokensIssued? ==> r.phone == phone.value
    ensures Given(phone) && Given(password) && !r.TokensIssued? ==> r == Error(InvalidCredentials)
  {
    if !Given(phone) || !Given(password) then Error(InvalidRequest)
    else if phone.value in users && CheckPassword(users[phone.value], password.value) then TokensIssued(phone.value)
    else Error(InvalidCredentials)
  }

  /** `forgot_password`: a reset entry `{code, attempts: 0}` for 600 s, only for a known user. */
  function ForgotPasswordStep(st: State, phone: Option<string>, code: string, now: nat): (r: (State, Response))
    ensures WellTyped(st.slots) ==> WellTyped(r.0.slots)
    ensures !Given(phone) ==> r == (st, Error(InvalidRequest))
  {
    if !Given(phone) then (st, Error(InvalidRequest))
    else if phone.value !in st.users then (st, Error(UserNotFound))
    else
      var key := ResetKey(phone.value);
      assert OtpKey(key);
      (st.(slots := st.slots[key := Slot(Pending(code, None, 0), now + ResetTimeout)]), CodeSent(phone.value))
  }

  /**
   * `reset_password`: the same expiry, attempt and mismatch rules as `verify_code`
   * with the 600 s timeout; on a match the entry goes only once the user is found.
   */
  function ResetPasswordStep(st: State, phone: Option<string>, code: Option<string>, newPassword: Option<string>,
                             now: nat): (r: (State, Response))
    requires WellTyped(st.slots)
    ensures WellTyped(r.0.slots)
    ensures !Given(phone) || !Given(code) || !Given(newPassword) ==> r == (st, Error(InvalidRequest))
  {
    if !Given(phone) || !Given(code) || !Given(newPassword) then (st, Error(InvalidRequest))
    else
      var key := ResetKey(phone.value);
      assert OtpKey(key);
      var cached := Live(st.slots, key, now);
      if cached.None? then (st, Error(CodeExpired))
      else
        var entry := cached.value;
        if entry.attempts >= MaxAttempts then (st.(slots := st.slots - {key}), Error(TooManyAttempts))
        else if entry.code != code.value then
          (st.(slots := st.slots[key := Slot(entry.(attempts := entry.attempts + 1), now + ResetTimeout)]), Error(InvalidCode))
        else if phone.value in st.users then
          (State(st.slots - {key}, st.users[phone.value := SetPassword(st.users[phone.value], newPassword.value)]),
           PasswordResetDone)
        else
          (st, Error(UserNotFound))
  }

  // ---------------------------------------------------------------------------
  // The service object

  class AuthService {
    const cache: Cache
    var users: Users

    ghost predicate Valid()
      reads this, cache
    {
      WellTyped(cache.slots) && KeyedByPhone(users)
    }

    function Snapshot(): State
      reads this, cache
    {
      State(cache.slots, users)
    }

    constructor (cache: Cache, users: Users)
      requires WellTyped(cache.slots) && KeyedByPhone(users)
      ensures Valid() && this.cache == cache && this.users == users
    {
      this.cache := cache;
      this.users := users;
    }

    method Authorize(phone: Option<string>, password: Option<string>, draws: seq<AuthUtils.Draw>, now: nat)
      returns (r: Response)
      requires Valid() && |draws| >= AuthUtils.DefaultCodeLength
      modifies cache
      ensures Valid()
      ensures (Snapshot(), r) == AuthorizeStep(old(Snapshot()), phone, password,
                                               AuthUtils.GenerateVerificationCode(AuthUtils.DefaultCodeLength, draws), now)
    {
      if !Given(phone) {
        return Error(InvalidRequest);
      }
      var code := AuthUtils.GenerateVerificationCode(AuthUtils.DefaultCodeLength, draws);
      cache.Set(CodeKey(phone.value), Pending(code, password, 0), CodeTimeout, now);
      // Handing the code to the SMS task is an event outside this model.
      r := CodeSent(phone.value);
    }

    method VerifyCode(phone: Option<string>, code: Option<string>, password: Option<string>, name: Option<string>,
                      now: nat) returns (r: Response)
      requires Valid()
      modifies this, cache
      ensures Valid()
      ensures (Snapshot(), r) == VerifyCodeStep(old(Snapshot()), phone, code, password, name, now)
    {
      if !Given(phone) || !Given(code) {
        return Error(InvalidRequest);
      }
      var key := CodeKey(phone.value);
      assert OtpKey(key);
      var cached := cache.Get(key, now);
      if cached.None? {
        return Error(CodeExpired);
      }
      var entry := cached.value;
      if entry.attempts >= MaxAttempts {
        cache.Delete(key);
        return Error(TooManyAttempts);
      }
      if entry.code != code.value {
        cache.Set(key, entry.(attempts := entry.attempts + 1), CodeTimeout, now);
        return Error(InvalidCode);
      }
      cache.Delete(key);
      if phone.value in users {
        if Given(password) && !CheckPassword(users[phone.value], password.value) {
          return Error(InvalidCredentials);
        }
      } else {
        if !Given(password) || !Given(name) {
          return Error(RegistrationDataRequired);
        }
        users := users[phone.value := RegisteredUser(phone.value, password.value, name.value)];
      }
      r := TokensIssued(phone.value);
    }

    method ForgotPassword(phone: Option<string>, draws: seq<AuthUtils.Draw>, now: nat) returns (r: Response)
      requires Valid() && |draws| >= AuthUtils.DefaultCodeLength
      modifies cache
      ensures Valid()
      ensures (Snapshot(), r) == ForgotPasswordStep(old(Snapshot()), phone,
                                                    AuthUtils.GenerateVerificationCode(AuthUtils.DefaultCodeLength, draws), now)
    {
      if !Given(phone) {
        return Error(InvalidRequest);
      }
      if phone.value !in users {
        return Error(UserNotFound);
      }
      var code := AuthUtils.GenerateVerificationCode(AuthUtils.DefaultCodeLength, draws);
      cache.Set(ResetKey(phone.value), Pending(code, None, 0), ResetTimeout, now);
      r := CodeSent(phone.value);
    }

    method ResetPassword(phone: Option<string>, code: Option<string>, newPassword: Option<string>, now: nat)
      returns (r: Response)
      requires Valid()
      modifies this, cache
      ensures Valid()
      ensures (Snapshot(), r) == ResetPasswordStep(old(Snapshot()), phone, code, newPassword, now)
    {
      if !Given(phone) || !Given(code) || !Given(newPassword) {
        return Error(InvalidRequest);
      }
      var key := ResetKey(phone.value);
      assert OtpKey(key);
      var cached := cache.Get(key, now);
      if cached.None? {
        return Error(CodeExpired);
      }
      var entry := cached.value;
      if entry.attempts >= MaxAttempts {
        cache.Delete(key);
        return Error(TooManyAttempts);
      }
      if entry.code != code.value {
        cache.Set(key, entry.(attempts := entry.attempts + 1), ResetTimeout, now);
        return Error(InvalidCode);
      }
      if phone.value !in users {
        return Error(UserNotFound);
      }
      users := users[phone.value := SetPassword(users[phone.value], newPassword.value)];
      cache.Delete(key);
      r := PasswordResetDone;
    }
  }

  // ---------------------------------------------------------------------------
  // What the flows promise

  /** The two OTP namespaces never share a key, so login codes and reset codes cannot meet. */
  lemma NamespacesDisjoint(p: string, q: string)
    ensures CodeKey(p) != ResetKey(q)
  {
    assert CodeKey(p)[0] == 's' && ResetKey(q)[0] == 'r';
  }

  /** The rate-limit counters live outside the OTP namespaces. */
  lemma CounterKeysAreNotOtpKeys(phone: string, ip: string, now: nat)
    ensures !OtpKey(AuthUtils.HourKey(phone, now))
    ensures !OtpKey(AuthUtils.DayKey(phone, now))
    ensures !OtpKey(AuthUtils.IpHourKey(ip, now))
  {
    var h, d, i := AuthUtils.HourKey(phone, now), AuthUtils.DayKey(phone, now), AuthUtils.IpHourKey(ip, now);
    assert h[4] == 'r' && d[4] == 'r' && i[4] == 'r';
    assert h[0] == 's' && d[0] == 's' && i[0] == 's';
  }

  /** Counting an SMS keeps pending entries and counters apart. */
  lemma IncrementKeepsWellTyped(slots: map<string, Slot>, phone: string, ip: Option<string>, now: nat)
    requires WellTyped(slots)
    ensures WellTyped(AuthUtils.Incremented(slots, phone, ip, now))
  {
    CounterKeysAreNotOtpKeys(phone, if ip.Some? then ip.value else "", now);
  }

  /**
   * `authorize` always succeeds for a given phone: a fresh entry with no attempts is
   * live for exactly 300 s, replacing any earlier one, and nothing else changes.
   */
  lemma AuthorizeIssuesFreshEntry(st: State, phone: string, password: Option<string>, code: string, now: nat, t: nat)
    requires phone != ""
    ensures var (st', r) := AuthorizeStep(st, Some(phone), password, code, now);
      && r == CodeSent(phone)
      && st'.users == st.users
      && st'.slots - {CodeKey(phone)} == st.slots - {CodeKey(phone)}
      && Live(st'.slots, CodeKey(phone), t) == (if t < now + CodeTimeout then Some(Pending(code, password, 0)) else None)
  {
  }

  /** Without a live entry the code is expired and nothing changes. */
  lemma VerifyWithoutEntry(st: State, phone: string, code: string, password: Option<string>, name: Option<string>,
                           now: nat)
    requires WellTyped(st.slots) && phone != "" && code != ""
    requires Live(st.slots, CodeKey(phone), now) == None
    ensures VerifyCodeStep(st, Some(phone), Some(code), password, name, now) == (st, Error(CodeExpired))
  {
  }

  /** An entry with three failed attempts is deleted whatever code is offered, even the right one. */
  lemma ExhaustedEntryIsDeleted(st: State, phone: string, code: string, password: Option<string>,
                                name: Option<string>, now: nat)
    requires WellTyped(st.slots) && phone != "" && code != ""
    requires var c := Live(st.slots, CodeKey(phone), now); c.Some? && c.value.attempts >= MaxAttempts
    ensures VerifyCodeStep(st, Some(phone), Some(code), password, name, now)
         == (st.(slots := st.slots - {CodeKey(phone)}), Error(TooManyAttempts))
  {
  }

  /** A wrong code counts one attempt and restarts the full 300 s window; the users are untouched. */
  lemma WrongCodeCountsAttempt(st: State, phone: string, code: string, password: Option<string>,
                               name: Option<string>, now: nat)
    requires WellTyped(st.slots) && phone != "" && code != ""
    requires var c := Live(st.slots, CodeKey(phone), now);
      c.Some? && c.value.attempts < MaxAttempts && c.value.code != code
    ensures var e := Live(st.slots, CodeKey(phone), now).value;
      VerifyCodeStep(st, Some(phone), Some(code), password, name, now)
        == (st.(slots := st.slots[CodeKey(phone) := Slot(e.(attempts := e.attempts + 1), now + CodeTimeout)]),
            Error(InvalidCode))
  {
  }

  /**
   * A matching code is consumed whatever the outcome of the account branch, so
   * replaying it, at any later time, finds it expired.
   */
  lemma MatchConsumesCode(st: State, phone: string, code: string, password: Option<string>, name: Option<string>,
                          now: nat, code2: string, password2: Option<string>, name2: Option<string>, later: nat)
    requires WellTyped(st.slots) && phone != "" && code != "" && code2 != ""
    requires var c := Live(st.slots, CodeKey(phone), now);
      c.Some? && c.value.attempts < MaxAttempts && c.value.code == code
    ensures var (st', r) := VerifyCodeStep(st, Some(phone), Some(code), password, name, now);
      && CodeKey(phone) !in st'.slots
      && r in {TokensIssued(phone), Error(InvalidCredentials), Error(RegistrationDataRequired)}
      && VerifyCodeStep(st', Some(phone), Some(code2), password2, name2, later).1 == Error(CodeExpired)
  {
  }

  /** For an existing user a match issues tokens unless a wrong password comes along; users are untouched. */
  lemma ExistingUserLogsIn(st: State, phone: string, code: string, password: Option<string>, name: Option<string>,
                           now: nat)
    requires WellTyped(st.slots) && phone != "" && code != "" && phone in st.users
    requires var c := Live(st.slots, CodeKey(phone), now);
      c.Some? && c.value.attempts < MaxAttempts && c.value.code == code
    ensures var (st', r) := VerifyCodeStep(st, Some(phone), Some(code), password, name, now);
      && st'.users == st.users
      && (r == TokensIssued(phone) <==> !Given(password) || CheckPassword(st.users[phone], password.value))
      && (r != TokensIssued(phone) ==> r == Error(InvalidCredentials))
  {
  }

  /**
   * For an unknown phone a match with a password and a name registers the user (username
   * and phone are the number, the names come from the full name, the phone is not
   * marked verified) and issues tokens; without them it fails after consuming the code.
   */
  lemma NewPhoneRegisters(st: State, phone: string, code: string, password: Option<string>, name: Option<string>,
                          now: nat)
    requires WellTyped(st.slots) && phone != "" && code != "" && phone !in st.users
    requires var c := Live(st.slots, CodeKey(phone), now);
      c.Some? && c.value.attempts < MaxAttempts && c.value.code == code
    ensures var (st', r) := VerifyCodeStep(st, Some(phone), Some(code), password, name, now);
      if Given(password) && Given(name) then
        && r == TokensIssued(phone)
        && st'.users.Keys == st.users.Keys + {phone}
        && (forall p :: p in st.users ==> st'.users[p] == st.users[p])
        && var u := st'.users[phone];
          && u.username == phone && u.phone == phone && CheckPassword(u, password.value)
          && u.name == name.value && u.firstName == FirstName(name.value) && u.lastName == LastName(name.value)
          && !u.isPhoneVerified
      else
        r == Error(RegistrationDataRequired) && st'.users == st.users && CodeKey(phone) !in st'.slots
  {
  }

  /**
   * Three wrong codes within the window lock the phone out: the fourth try fails
   * with too many attempts whatever code it offers.
   */
  lemma ThreeWrongCodesLockOut(st: State, phone: string, password: Option<string>, code: string,
                               w1: string, w2: string, w3: string, any: string,
                               pw: Option<string>, name: Option<string>,
                               t0: nat, t1: nat, t2: nat, t3: nat, t4: nat)
    requires WellTyped(st.slots) && phone != ""
    requires w1 != code && w2 != code && w3 != code
    requires w1 != "" && w2 != "" && w3 != "" && any != ""
    requires t0 <= t1 < t0 + CodeTimeout && t1 <= t2 < t1 + CodeTimeout
    requires t2 <= t3 < t2 + CodeTimeout && t3 <= t4 < t3 + CodeTimeout
    ensures var s1 := AuthorizeStep(st, Some(phone), password, code, t0).0;
      var s2 := VerifyCodeStep(s1, Some(phone), Some(w1), pw, name, t1).0;
      var s3 := VerifyCodeStep(s2, Some(phone), Some(w2), pw, name, t2).0;
      var s4 := VerifyCodeStep(s3, Some(phone), Some(w3), pw, name, t3).0;
      VerifyCodeStep(s4, Some(phone), Some(any), pw, name, t4) == (s4.(slots := s4.slots - {CodeKey(phone)}), Error(TooManyAttempts))
  {
    var key := CodeKey(phone);
    var s1 := AuthorizeStep(st, Some(phone), password, code, t0).0;
    assert Live(s1.slots, key, t1) == Some(Pending(code, password, 0));
    var s2 := VerifyCodeStep(s1, Some(phone), Some(w1), pw, name, t1).0;
    assert Live(s2.slots, key, t2) == Some(Pending(code, password, 1));
    var s3 := VerifyCodeStep(s2, Some(phone), Some(w2), pw, name, t2).0;
    assert Live(s3.slots, key, t3) == Some(Pending(code, password, 2));
    var s4 := VerifyCodeStep(s3, Some(phone), Some(w3), pw, name, t3).0;
    assert Live(s4.slots, key, t4) == Some(Pending(code, password, 3));
  }

  /**
   * One wrong code and then the right one, for a registered phone: the first try
   * counts an attempt, the second issues tokens and removes the entry.
   */
  lemma WrongThenRightCode(st: State, phone: string, code: string, wrong: string, t0: nat, t1: nat, t2: nat)
    requires WellTyped(st.slots) && phone != "" && phone in st.users
    requires code != "" && wrong != "" && wrong != code
    requires t0 <= t1 < t0 + CodeTimeout && t1 <= t2 < t1 + CodeTimeout
    ensures var s1 := AuthorizeStep(st, Some(phone), None, code, t0).0;
      var (s2, r2) := VerifyCodeStep(s1, Some(phone), Some(wrong), None, None, t1);
      var (s3, r3) := VerifyCodeStep(s2, Some(phone), Some(code), None, None, t2);
      && r2 == Error(InvalidCode) && s2.slots[CodeKey(phone)] == Slot(Pending(code, None, 1), t1 + CodeTimeout)
      && r3 == TokensIssued(phone) && CodeKey(phone) !in s3.slots && s3.users == st.users
  {
    var key := CodeKey(phone);
    var s1 := AuthorizeStep(st, Some(phone), None, code, t0).0;
    assert Live(s1.slots, key, t1) == Some(Pending(code, None, 0));
    var s2 := VerifyCodeStep(s1, Some(phone), Some(wrong), None, None, t1).0;
    assert Live(s2.slots, key, t2) == Some(Pending(code, None, 1));
  }

  /** A reset code is issued only for a known user, with no attempts, for 600 s; login codes are untouched. */
  lemma ForgotPasswordIssuesResetCode(st: State, phone: string, code: string, now: nat, q: string)
    requires phone != ""
    ensures var (st', r) := ForgotPasswordStep(st, Some(phone), code, now);
      if phone in st.users then
        && r == CodeSent(phone) && st'.users == st.users
        && st'.slots[ResetKey(phone)] == Slot(Pending(code, None, 0), now + ResetTimeout)
        && st'.slots - {ResetKey(phone)} == st.slots - {ResetKey(phone)}
        && Live(st'.slots, CodeKey(q), now) == Live(st.slots, CodeKey(q), now)
      else
        st' == st && r == Error(UserNotFound)
  {
    NamespacesDisjoint(q, phone);
  }

  /**
   * A matching reset code sets the new password of that user only and deletes the
   * entry; if the user has gone meanwhile, nothing changes, the entry included.
   */
  lemma MatchingResetCode(st: State, phone: string, code: string, newPassword: string, now: nat)
    requires WellTyped(st.slots) && phone != "" && code != "" && newPassword != ""
    requires var c := Live(st.slots, ResetKey(phone), now);
      c.Some? && c.value.attempts < MaxAttempts && c.value.code == code
    ensures var (st', r) := ResetPasswordStep(st, Some(phone), Some(code), Some(newPassword), now);
      if phone in st.users then
        && r == PasswordResetDone
        && st'.slots == st.slots - {ResetKey(phone)}
        && st'.users.Keys == st.users.Keys
        && CheckPassword(st'.users[phone], newPassword)
        && st'.users[phone].(password := st.users[phone].password) == st.users[phone]
        && (forall p :: p in st.users && p != phone ==> st'.users[p] == st.users[p])
      else
        st' == st && r == Error(UserNotFound)
  {
  }

  /** Without a live reset entry the reset code is expired and nothing changes. */
  lemma ResetWithoutEntry(st: State, phone: string, code: string, newPassword: string, now: nat)
    requires WellTyped(st.slots) && phone != "" && code != "" && newPassword != ""
    requires Live(st.slots, ResetKey(phone), now) == None
    ensures ResetPasswordStep(st, Some(phone), Some(code), Some(newPassword), now) == (st, Error(CodeExpired))
  {
  }

  /**
   * A reset entry with three failed attempts is deleted whatever code is offered,
   * even the right one, and no password changes.
   */
  lemma ExhaustedResetEntryIsDeleted(st: State, phone: string, code: string, newPassword: string, now: nat)
    requires WellTyped(st.slots) && phone != "" && code != "" && newPassword != ""
    requires var c := Live(st.slots, ResetKey(phone), now); c.Some? && c.value.attempts >= MaxAttempts
    ensures ResetPasswordStep(st, Some(phone), Some(code), Some(newPassword), now)
         == (st.(slots := st.slots - {ResetKey(phone)}), Error(TooManyAttempts))
  {
  }

  /** A wrong reset code counts an attempt with a fresh 600 s window. */
  lemma WrongResetCodeCountsAttempt(st: State, phone: string, code: string, newPassword: string, now: nat)
    requires WellTyped(st.slots) && phone != "" && code != "" && newPassword != ""
    requires var c := Live(st.slots, ResetKey(phone), now);
      c.Some? && c.value.attempts < MaxAttempts && c.value.code != code
    ensures var e := Live(st.slots, ResetKey(phone), now).value;
      ResetPasswordStep(st, Some(phone), Some(code), Some(newPassword), now)
        == (st.(slots := st.slots[ResetKey(phone) := Slot(e.(attempts := e.attempts + 1), now + ResetTimeout)]),
            Error(InvalidCode))
  {
  }

  /** Resetting a password never touches a login code. */
  lemma ResetKeepsLoginCodes(st: State, phone: Option<string>, code: Option<string>, newPassword: Option<string>,
                             now: nat, q: string)
    requires WellTyped(st.slots)
    ensures var st' := ResetPasswordStep(st, phone, code, newPassword, now).0;
      (CodeKey(q) in st'.slots <==> CodeKey(q) in st.slots)
      && (CodeKey(q) in st.slots ==> st'.slots[CodeKey(q)] == st.slots[CodeKey(q)])
  {
    if phone.Some? {
      NamespacesDisjoint(q, phone.value);
    }
  }

  /** Verifying a code never touches a reset code. */
  lemma VerifyKeepsResetCodes(st: State, phone: Option<string>, code: Option<string>, password: Option<string>,
                              name: Option<string>, now: nat, q: string)
    requires WellTyped(st.slots)
    ensures var st' := VerifyCodeStep(st, phone, code, password, name, now).0;
      (ResetKey(q) in st'.slots <==> ResetKey(q) in st.slots)
      && (ResetKey(q) in st.slots ==> st'.slots[ResetKey(q)] == st.slots[ResetKey(q)])
  {
    if phone.Some? {
      NamespacesDisjoint(phone.value, q);
    }
  }
}

=== FILE: cache.dfy ===
/**
 * The volatile key-value cache the authentication code shares (Django's `cache`).
 * Keys are the source's own strings; every value carries the instant at which its
 * timeout runs out, and a read at or after that instant sees nothing.
 */
module VolatileCache {
  import opened Wrappers

  /** The two kinds of value the source stores: an OTP entry dict, or an integer counter. */
  datatype Value =
    | Pending(code: string, password: Option<string>, attempts: nat)
    | Count(n: nat)

  datatype Slot = Slot(value: Value, expiresAt: int)

  /** `cache.get(key)` at instant `now`: a value whose timeout has run out reads as absent. */
  function Live(slots: map<string, Slot>, key: string, now: int): Option<Value> {
    if key in slots && now < slots[key].expiresAt then Some(slots[key].value) else None
  }

  class Cache {
    var slots: map<string, Slot>

    constructor ()
      ensures slots == map[]
    {
      slots := map[];
    }

    function Get(key: string, now: int): Option<Value>
      reads this
    {
      Live(slots, key, now)
    }

    /** `cache.set(key, value, timeout=timeout)`: replaces any previous value and its timeout. */
    method Set(key: string, value: Value, timeout: nat, now: int)
      modifies this
      ensures slots == old(slots)[key := Slot(value, now + timeout)]
      ensures Get(key, now) == (if timeout > 0 then Some(value) else None)
    {
      slots := slots[key := Slot(value, now + timeout)];
    }

    /** `cache.delete(key)`. */
    method Delete(key: string)
      modifies this
      ensures slots == old(slots) - {key}
      ensures forall t :: Get(key, t) == None
    {
      slots := slots - {key};
    }
  }
}

=== FILE: cart_views.dfy ===
/**
 * cart/views.py: the per-user cart table. `cart_view` GET reports the requester's
 * lines with their total; POST adds a product, merging into an existing line;
 * `remove_from_cart` deletes a line. cart/models.py is not part of this model: a
 * line's subtotal is taken to be its quantity times the product's current price.
 */
module CartViews {
  import opened Wrappers
  import opened Catalog

  datatype CartLine = CartLine(user: int, product: int, quantity: int)

  predicate IsLineOf(line: CartLine, user: int, product: int) {
    line.user == user && line.product == product
  }

  function Subtotal(line: CartLine, catalog: Products): int {
    line.quantity * PriceOf(catalog, line.product)
  }

  /** The requester's lines, in table order. */
  function UserLines(lines: seq<CartLine>, user: int): (r: seq<CartLine>)
    ensures |r| <= |lines|
    ensures forall l :: l in r <==> l in lines && l.user == user
  {
    if lines == [] then []
    else
      var last := lines[|lines| - 1];
      UserLines(lines[..|lines| - 1], user) + (if last.user == user then [last] else [])
  }

  /** `sum(item.subtotal for item in cart_items)` over the requester's lines. */
  function CartTotal(lines: seq<CartLine>, catalog: Products, user: int): int {
    if lines == [] then 0
    else
      var last := lines[|lines| - 1];
      CartTotal(lines[..|lines| - 1], catalog, user) + (if last.user == user then Subtotal(last, catalog) else 0)
  }

  /** The summed subtotals of every line given. */
  function LinesTotal(lines: seq<CartLine>, catalog: Products): int {
    if lines == [] then 0 else LinesTotal(lines[..|lines| - 1], catalog) + Subtotal(lines[|lines| - 1], catalog)
  }

  /** The requester's total is the sum over the lines the GET view lists. */
  lemma {:induction false} CartTotalOfUserLines(lines: seq<CartLine>, catalog: Products, user: int)
    ensures CartTotal(lines, catalog, user) == LinesTotal(UserLines(lines, user), catalog)
    decreases |lines|
  {
    if lines != [] {
      var init, last := lines[..|lines| - 1], lines[|lines| - 1];
      CartTotalOfUserLines(init, catalog, user);
      if last.user == user {
        var u := UserLines(init, user) + [last];
        assert UserLines(lines, user) == u;
        assert u[..|u| - 1] == UserLines(init, user);
        assert CartTotal(lines, catalog, user) == CartTotal(init, catalog, user) + Subtotal(last, catalog);
      } else {
        assert UserLines(lines, user) == UserLines(init, user) + [];
        assert UserLines(lines, user) == UserLines(init, user);
        assert CartTotal(lines, catalog, user) == CartTotal(init, catalog, user);
      }
    }
  }

  /** The position of the line of (user, product), the first one if several. */
  function IndexOf(lines: seq<CartLine>, user: int, product: int): (r: Option<nat>)
    ensures r.Some? ==> r.value < |lines| && IsLineOf(lines[r.value], user, product)
    ensures r.Some? ==> forall j :: 0 <= j < r.value ==> !IsLineOf(lines[j], user, product)
    ensures r.None? <==> forall j :: 0 <= j < |lines| ==> !IsLineOf(lines[j], user, product)
  {
    if lines == [] then None
    else if IsLineOf(lines[0], user, product) then Some(0)
    else match IndexOf(lines[1..], user, product)
      case None => None
      case Some(i) => Some(i + 1)
  }

  /** The quantity of `product` in `user`'s cart, 0 when there is no line. */
  function QuantityOf(lines: seq<CartLine>, user: int, product: int): int {
    match IndexOf(lines, user, product)
    case None => 0
    case Some(i) => lines[i].quantity
  }

  /** `get_or_create` keeps at most one line per (user, product). */
  ghost predicate OnePerPair(lines: seq<CartLine>) {
    forall i, j :: 0 <= i < j < |lines| ==> !IsLineOf(lines[j], lines[i].user, lines[i].product)
  }

  ghost predicate PositiveQuantities(lines: seq<CartLine>) {
    forall l :: l in lines ==> l.quantity >= 1
  }

  datatype CartError =
    | InvalidData          // 400 "Invalid data": a missing field or quantity < 1
    | ProductUnavailable   // 404 "Product not found or out of stock"
    | NotInCart            // 404 "Product not found in cart"

  /** The `data` of a successful response: items, total and items_count. */
  datatype Summary = Summary(items: seq<CartLine>, total: int, itemsCount: nat)

  function SummaryOf(lines: seq<CartLine>, catalog: Products, user: int): (s: Summary)
    ensures forall l :: l in s.items <==> l in lines && l.user == user
    ensures s.total == LinesTotal(s.items, catalog)
    ensures s.itemsCount == |s.items|
  {
    CartTotalOfUserLines(lines, catalog, user);
    Summary(UserLines(lines, user), CartTotal(lines, catalog, user), |UserLines(lines, user)|)
  }

  /** POST `cart_view`: the table after the request, or the error that leaves it unchanged. */
  function Added(lines: seq<CartLine>, catalog: Products, user: int, productId: Option<int>, quantity: Option<int>)
    : (r: Result<seq<CartLine>, CartError>)
    ensures r.Failure? <==>
      productId.None? || quantity.None? || quantity.value < 1
      || productId.value !in catalog || !catalog[productId.value].inStock
    ensures r.Success? ==>
      && IndexOf(r.value, user, productId.value).Some?
      && |r.value| == |lines| + (if IndexOf(lines, user, productId.value).None? then 1 else 0)
  {
    if productId.None? || quantity.None? || quantity.value < 1 then Failure(InvalidData)
    else if productId.value !in catalog || !catalog[productId.value].inStock then Failure(ProductUnavailable)
    else match IndexOf(lines, user, productId.value)
      case None =>
        var x := CartLine(user, productId.value, quantity.value);
        IndexOfAppend(lines, x, user, productId.value);
        Success(lines + [x])
      case Some(i) =>
        var x := lines[i].(quantity := lines[i].quantity + quantity.value);
        IndexOfUpdate(lines, i, x, user, productId.value);
        Success(lines[i := x])
  }

  /** `remove_from_cart`: the table without the requester's line for the product. */
  function Removed(lines: seq<CartLine>, user: int, productId: int): (r: Result<seq<CartLine>, CartError>)
    ensures r.Failure? <==> IndexOf(lines, user, productId).None?
    ensures r.Failure? ==> r.error == NotInCart
    ensures r.Success? ==> |r.value| == |lines| - 1
  {
    match IndexOf(lines, user, productId)
    case None => Failure(NotInCart)
    case Some(i) => Success(lines[..i] + lines[i + 1..])
  }

  /** The table once every line of `user` is deleted (`cart.items.all().delete()`). */
  function WithoutUser(lines: seq<CartLine>, user: int): (r: seq<CartLine>)
    ensures forall l :: l in r <==> l in lines && l.user != user
  {
    if lines == [] then []
    else
      var last := lines[|lines| - 1];
      WithoutUser(lines[..|lines| - 1], user) + (if last.user != user then [last] else [])
  }

  class CartTable {
    var lines: seq<CartLine>

    ghost predicate Valid()
      reads this
    {
      OnePerPair(lines) && PositiveQuantities(lines)
    }

    constructor ()
      ensures lines == [] && Valid()
    {
      lines := [];
    }

    /** `CartItem.objects.get(user=..., product_id=...)`. */
    method Find(user: int, product: int) returns (r: Option<nat>)
      ensures r == IndexOf(lines, user, product)
    {
      var i := 0;
      while i < |lines|
        invariant 0 <= i <= |lines|
        invariant forall j :: 0 <= j < i ==> !IsLineOf(lines[j], user, product)
      {
        if IsLineOf(lines[i], user, product) {
          return Some(i);
        }
        i := i + 1;
      }
      return None;
    }

    /** GET `cart_view`: the requester's lines, their summed subtotals and their number. */
    method View(catalog: Products, user: int) returns (s: Summary)
      ensures s == SummaryOf(lines, catalog, user)
    {
      var items: seq<CartLine> := [];
      var total := 0;
      var i := 0;
      while i < |lines|
        invariant 0 <= i <= |lines|
        invariant items == UserLines(lines[..i], user)
        invariant total == CartTotal(lines[..i], catalog, user)
      {
        assert lines[..i + 1][..i] == lines[..i] && lines[..i + 1][i] == lines[i];
        if lines[i].user == user {
          items := items + [lines[i]];
          total := total + Subtotal(lines[i], catalog);
        }
        i := i + 1;
      }
      assert lines[..i] == lines;
      s := Summary(items, total, |items|);
    }

    /** POST `cart_view`. */
    method Add(catalog: Products, user: int, productId: Option<int>, quantity: Option<int>)
      returns (r: Result<Summary, CartError>)
      requires Valid()
      modifies this
      ensures Valid()
      ensures match Added(old(lines), catalog, user, productId, quantity)
        case Failure(e) => lines == old(lines) && r == Failure(e)
        case Success(after) => lines == after && r == Success(SummaryOf(lines, catalog, user))
    {
      if productId.None? || quantity.None? || quantity.value < 1 {
        return Failure(InvalidData);
      }
      var id, q := productId.value, quantity.value;
      if id !in catalog || !catalog[id].inStock {
        return Failure(ProductUnavailable);
      }
      var found := Find(user, id);
      ghost var before := lines;
      if found.None? {
        AppendKeepsOnePerPair(lines, CartLine(user, id, q));
        lines := lines + [CartLine(user, id, q)];
      } else {
        var i := found.value;
        UpdateKeepsOnePerPair(lines, i, lines[i].(quantity := lines[i].quantity + q));
        lines := lines[i := lines[i].(quantity := lines[i].quantity + q)];
      }
      assert Added(before, catalog, user, productId, quantity) == Success(lines);
      var s := View(catalog, user);
      r := Success(s);
    }

    /** `remove_from_cart`. */
    method Remove(catalog: Products, user: int, productId: int) returns (r: Result<Summary, CartError>)
      requires Valid()
      modifies this
      ensures Valid()
      ensures match Removed(old(lines), user, productId)
        case Failure(e) => lines == old(lines) && r == Failure(e)
        case Success(after) => lines == after && r == Success(SummaryOf(lines, catalog, user))
    {
      var found := Find(user, productId);
      if found.None? {
        return Failure(NotInCart);
      }
      var i := found.value;
      RemoveKeepsOnePerPair(lines, i);
      lines := lines[..i] + lines[i + 1..];
      var s := View(catalog, user);
      r := Success(s);
    }

    /** Delete every line of `user`. */
    method ClearUser(user: int)
      requires Valid()
      modifies this
      ensures Valid()
      ensures lines == WithoutUser(old(lines), user)
    {
      WithoutUserKeepsValid(lines, user);
      lines := WithoutUser(lines, user);
    }
  }

  // ---------------------------------------------------------------------------
  // Lemmas

  lemma AppendKeepsOnePerPair(lines: seq<CartLine>, x: CartLine)
    requires OnePerPair(lines) && IndexOf(lines, x.user, x.product).None?
    ensures OnePerPair(lines + [x])
  {
  }

  lemma UpdateKeepsOnePerPair(lines: seq<CartLine>, i: nat, x: CartLine)
    requires OnePerPair(lines) && i < |lines| && IsLineOf(x, lines[i].user, lines[i].product)
    ensures OnePerPair(lines[i := x])
  {
  }

  lemma RemoveKeepsOnePerPair(lines: seq<CartLine>, i: nat)
    requires OnePerPair(lines) && i < |lines|
    ensures OnePerPair(lines[..i] + lines[i + 1..])
  {
    var r := lines[..i] + lines[i + 1..];
    forall a, b | 0 <= a < b < |r|
      ensures !IsLineOf(r[b], r[a].user, r[a].product)
    {
      var a' := if a < i then a else a + 1;
      var b' := if b < i then b else b + 1;
      assert r[a] == lines[a'] && r[b] == lines[b'];
    }
  }

  lemma OnePerPairSnoc(w: seq<CartLine>, x: CartLine)
    requires OnePerPair(w)
    requires forall a :: 0 <= a < |w| ==> !IsLineOf(x, w[a].user, w[a].product)
    ensures OnePerPair(w + [x])
  {
    var s := w + [x];
    forall a, b | 0 <= a < b < |s|
      ensures !IsLineOf(s[b], s[a].user, s[a].product)
    {
      if b < |w| {
        assert s[a] == w[a] && s[b] == w[b];
      } else {
        assert s[a] == w[a] && s[b] == x;
      }
    }
  }

  lemma {:induction false} WithoutUserKeepsValid(lines: seq<CartLine>, user: int)
    requires OnePerPair(lines) && PositiveQuantities(lines)
    ensures OnePerPair(WithoutUser(lines, user)) && PositiveQuantities(WithoutUser(lines, user))
    decreases |lines|
  {
    if lines != [] {
      var init := lines[..|lines| - 1];
      var last := lines[|lines| - 1];
      assert forall l :: l in init ==> l in lines;
      assert OnePerPair(init);
      WithoutUserKeepsValid(init, user);
      var w := WithoutUser(init, user);
      if last.user != user {
        forall a | 0 <= a < |w|
          ensures !IsLineOf(last, w[a].user, w[a].product)
        {
          assert w[a] in init;
          var k :| 0 <= k < |init| && init[k] == w[a];
          assert lines[k] == w[a];
        }
        OnePerPairSnoc(w, last);
      } else {
        assert WithoutUser(lines, user) == w + [];
      }
    }
  }

  /** Subtotals add up over concatenated tables. */
  lemma {:induction false} TotalConcat(a: seq<CartLine>, b: seq<CartLine>, catalog: Products, user: int)
    ensures CartTotal(a + b, catalog, user) == CartTotal(a, catalog, user) + CartTotal(b, catalog, user)
    decreases |b|
  {
    if b == [] {
      assert a + b == a;
    } else {
      var init := b[..|b| - 1];
      assert (a + b)[..|a + b| - 1] == a + init;
      TotalConcat(a, init, catalog, user);
    }
  }

  lemma TotalSingle(x: CartLine, catalog: Products, user: int)
    ensures CartTotal([x], catalog, user) == if x.user == user then Subtotal(x, catalog) else 0
  {
    assert [x][..0] == [];
  }

  /** Replacing one line changes the total by the difference of the two subtotals. */
  lemma TotalUpdate(lines: seq<CartLine>, i: nat, x: CartLine, catalog: Products, user: int)
    requires i < |lines| && x.user == lines[i].user
    ensures CartTotal(lines[i := x], catalog, user)
         == CartTotal(lines, catalog, user)
          - (if x.user == user then Subtotal(lines[i], catalog) - Subtotal(x, catalog) else 0)
  {
    assert lines == lines[..i] + [lines[i]] + lines[i + 1..];
    assert lines[i := x] == lines[..i] + [x] + lines[i + 1..];
    TotalConcat(lines[..i] + [lines[i]], lines[i + 1..], catalog, user);
    TotalConcat(lines[..i], [lines[i]], catalog, user);
    TotalConcat(lines[..i] + [x], lines[i + 1..], catalog, user);
    TotalConcat(lines[..i], [x], catalog, user);
    TotalSingle(lines[i], catalog, user);
    TotalSingle(x, catalog, user);
  }

  /** Removing one line takes its subtotal out of its owner's total. */
  lemma TotalRemove(lines: seq<CartLine>, i: nat, catalog: Products, user: int)
    requires i < |lines|
    ensures CartTotal(lines[..i] + lines[i + 1..], catalog, user)
         == CartTotal(lines, catalog, user) - (if lines[i].user == user then Subtotal(lines[i], catalog) else 0)
  {
    assert lines == lines[..i] + [lines[i]] + lines[i + 1..];
    TotalConcat(lines[..i] + [lines[i]], lines[i + 1..], catalog, user);
    TotalConcat(lines[..i], [lines[i]], catalog, user);
    TotalConcat(lines[..i], lines[i + 1..], catalog, user);
    TotalSingle(lines[i], catalog, user);
  }

  /** Where each pair's line sits after appending a line. */
  lemma IndexOfAppend(lines: seq<CartLine>, x: CartLine, user: int, product: int)
    ensures IndexOf(lines + [x], user, product)
         == if IndexOf(lines, user, product).Some? then IndexOf(lines, user, product)
            else if IsLineOf(x, user, product) then Some(|lines|)
            else None
  {
    var s := lines + [x];
    assert forall j :: 0 <= j < |lines| ==> s[j] == lines[j];
    assert s[|lines|] == x;
  }

  /** Replacing a line by one of the same pair moves no line. */
  lemma IndexOfUpdate(lines: seq<CartLine>, i: nat, x: CartLine, user: int, product: int)
    requires i < |lines| && IsLineOf(x, lines[i].user, lines[i].product)
    ensures IndexOf(lines[i := x], user, product) == IndexOf(lines, user, product)
  {
    var s := lines[i := x];
    assert forall j :: 0 <= j < |lines| ==> (IsLineOf(s[j], user, product) <==> IsLineOf(lines[j], user, product));
  }

  /** After removing the only line of (user, product), the other pairs keep their quantities. */
  lemma QuantityAfterRemove(lines: seq<CartLine>, i: nat, user: int, product: int)
    requires OnePerPair(lines) && i < |lines|
    ensures var s := lines[..i] + lines[i + 1..];
      QuantityOf(s, user, product)
        == if IsLineOf(lines[i], user, product) then 0 else QuantityOf(lines, user, product)
  {
    var s := lines[..i] + lines[i + 1..];
    assert forall j :: 0 <= j < i ==> s[j] == lines[j];
    assert forall j :: i <= j < |s| ==> s[j] == lines[j + 1];
    if IsLineOf(lines[i], user, product) {
      assert IndexOf(s, user, product).None?;
    } else {
      match IndexOf(lines, user, product)
      case None =>
        assert IndexOf(s, user, product).None?;
      case Some(k) =>
        if k < i {
          assert IndexOf(s, user, product) == Some(k);
        } else {
          assert k > i && s[k - 1] == lines[k];
          forall j | 0 <= j < k - 1
            ensures !IsLineOf(s[j], user, product)
          {
            if j < i {
              assert s[j] == lines[j];
            } else {
              assert s[j] == lines[j + 1];
            }
          }
          assert IndexOf(s, user, product) == Some(k - 1);
        }
    }
  }

  /**
   * Adding merges into the existing line of (user, product) or appends one with the
   * requested quantity: that pair's quantity grows by exactly the quantity, a line
   * is added only when there was none, every other pair keeps its quantity, and the
   * requester's total grows by quantity times the current price.
   */
  lemma AddMergesOrAppends(lines: seq<CartLine>, catalog: Products, user: int, productId: int, quantity: int,
                           u: int, p: int)
    requires Added(lines, catalog, user, Some(productId), Some(quantity)).Success?
    ensures var after := Added(lines, catalog, user, Some(productId), Some(quantity)).value;
      && quantity >= 1 && productId in catalog && catalog[productId].inStock
      && QuantityOf(after, user, productId) == QuantityOf(lines, user, productId) + quantity
      && |after| == |lines| + (if IndexOf(lines, user, productId).None? then 1 else 0)
      && (!(u == user && p == productId) ==> QuantityOf(after, u, p) == QuantityOf(lines, u, p))
      && CartTotal(after, catalog, user) == CartTotal(lines, catalog, user) + quantity * catalog[productId].price
      && (u != user ==> CartTotal(after, catalog, u) == CartTotal(lines, catalog, u))
  {
    if IndexOf(lines, user, productId).None? {
      AddAppends(lines, catalog, user, productId, quantity, u, p);
    } else {
      MergeQuantities(lines, user, productId, quantity, u, p);
      MergeTotals(lines, catalog, user, productId, quantity, u);
    }
  }

  /** A product with no line yet gets one line holding the requested quantity. */
  lemma AddAppends(lines: seq<CartLine>, catalog: Products, user: int, productId: int, quantity: int, u: int, p: int)
    requires IndexOf(lines, user, productId).None?
    ensures var after := lines + [CartLine(user, productId, quantity)];
      && QuantityOf(after, user, productId) == quantity
      && (!(u == user && p == productId) ==> QuantityOf(after, u, p) == QuantityOf(lines, u, p))
      && CartTotal(after, catalog, user) == CartTotal(lines, catalog, user) + quantity * PriceOf(catalog, productId)
      && (u != user ==> CartTotal(after, catalog, u) == CartTotal(lines, catalog, u))
  {
    var x := CartLine(user, productId, quantity);
    IndexOfAppend(lines, x, user, productId);
    IndexOfAppend(lines, x, u, p);
    TotalConcat(lines, [x], catalog, user);
    TotalConcat(lines, [x], catalog, u);
    TotalSingle(x, catalog, user);
    TotalSingle(x, catalog, u);
  }

  /** A product already in the cart has its line's quantity raised in place; other pairs keep theirs. */
  lemma MergeQuantities(lines: seq<CartLine>, user: int, productId: int, quantity: int, u: int, p: int)
    requires IndexOf(lines, user, productId).Some?
    ensures var i := IndexOf(lines, user, productId).value;
      var after := lines[i := lines[i].(quantity := lines[i].quantity + quantity)];
      && QuantityOf(after, user, productId) == QuantityOf(lines, user, productId) + quantity
      && (!(u == user && p == productId) ==> QuantityOf(after, u, p) == QuantityOf(lines, u, p))
  {
    var i := IndexOf(lines, user, productId).value;
    var y := lines[i].(quantity := lines[i].quantity + quantity);
    IndexOfUpdate(lines, i, y, user, productId);
    IndexOfUpdate(lines, i, y, u, p);
  }

  /** Raising the quantity of a line raises its owner's total by the added quantity times the price. */
  lemma MergeTotals(lines: seq<CartLine>, catalog: Products, user: int, productId: int, quantity: int, u: int)
    requires IndexOf(lines, user, productId).Some?
    ensures var i := IndexOf(lines, user, productId).value;
      var after := lines[i := lines[i].(quantity := lines[i].quantity + quantity)];
      && CartTotal(after, catalog, user) == CartTotal(lines, catalog, user) + quantity * PriceOf(catalog, productId)
      && (u != user ==> CartTotal(after, catalog, u) == CartTotal(lines, catalog, u))
  {
    var i := IndexOf(lines, user, productId).value;
    var y := lines[i].(quantity := lines[i].quantity + quantity);
    TotalUpdate(lines, i, y, catalog, user);
    TotalUpdate(lines, i, y, catalog, u);
    SubtotalGrows(lines[i], catalog, quantity);
  }

  /** Adding to a line's quantity adds that many times the price to its subtotal. */
  lemma SubtotalGrows(line: CartLine, catalog: Products, quantity: int)
    ensures Subtotal(line.(quantity := line.quantity + quantity), catalog)
         == Subtotal(line, catalog) + quantity * PriceOf(catalog, line.product)
  {
    var price := PriceOf(catalog, line.product);
    assert (line.quantity + quantity) * price == line.quantity * price + quantity * price;
  }

  /** A rejected add leaves the table as it was; bad input is reported before stock. */
  lemma RejectedAdd(lines: seq<CartLine>, catalog: Products, user: int, productId: Option<int>, quantity: Option<int>)
    ensures Added(lines, catalog, user, productId, quantity).Failure? <==>
      productId.None? || quantity.None? || quantity.value < 1
      || productId.value !in catalog || !catalog[productId.value].inStock
    ensures (productId.None? || quantity.None? || quantity.value < 1) ==>
      Added(lines, catalog, user, productId, quantity) == Failure(InvalidData)
  {
  }

  /**
   * Removing deletes exactly the requester's line for the product: that pair has no
   * line any more, the total loses its subtotal, and other pairs and other users'
   * totals are untouched; without such a line it is `NotInCart`.
   */
  lemma RemoveDeletesLine(lines: seq<CartLine>, catalog: Products, user: int, productId: int, u: int, p: int)
    requires OnePerPair(lines)
    ensures var r := Removed(lines, user, productId);
      && (r.Failure? <==> QuantityOf(lines, user, productId) == 0 && IndexOf(lines, user, productId).None?)
      && (r.Success? ==>
        && |r.value| == |lines| - 1
        && IndexOf(r.value, user, productId).None?
        && CartTotal(r.value, catalog, user)
           == CartTotal(lines, catalog, user) - Subtotal(lines[IndexOf(lines, user, productId).value], catalog)
        && (!(u == user && p == productId) ==> QuantityOf(r.value, u, p) == QuantityOf(lines, u, p))
        && (u != user ==> CartTotal(r.value, catalog, u) == CartTotal(lines, catalog, u)))
  {
    match IndexOf(lines, user, productId)
    case None =>
    case Some(i) =>
      QuantityAfterRemove(lines, i, u, p);
      var s := lines[..i] + lines[i + 1..];
      assert forall j :: 0 <= j < i ==> s[j] == lines[j];
      assert forall j :: i <= j < |s| ==> s[j] == lines[j + 1];
      assert IndexOf(s, user, productId).None?;
      TotalRemove(lines, i, catalog, user);
      TotalRemove(lines, i, catalog, u);
  }
}

=== FILE: catalog.dfy ===
/**
 * The product rows the shop views read. products/models.py is not part of this
 * model; a product carries what the views use: its id, category, price in cents,
 * the JSON attributes object and the stock flag.
 */
module Catalog {

  /** A JSON value stored under an attribute key (nested arrays and objects are not modelled). */
  datatype Scalar = Str(s: string) | Int(i: int) | Bool(b: bool) | Null

  datatype Product = Product(id: int, categoryId: int, price: int, attributes: map<string, Scalar>, inStock: bool)

  /** The product table by primary key. */
  type Products = map<int, Product>

  ghost predicate KeyedById(catalog: Products) {
    forall id :: id in catalog ==> catalog[id].id == id
  }

  /** The current price of a product; a missing row counts as 0, a case the foreign keys rule out. */
  function PriceOf(catalog: Products, id: int): (p: int)
    ensures id in catalog ==> p == catalog[id].price
  {
    if id in catalog then catalog[id].price else 0
  }
}

=== FILE: orders_models.dfy ===
/**
 * orders/models.py: an order with its status, money fields (integer cents) and a
 * generated order number, and the order items whose subtotal `save()` computes.
 */
module OrderModels {
  import opened Wrappers
  import opened Strings

  /** `STATUS_CHOICES`. */
  datatype Status = Pending | Processing | Shipped | Delivered | Cancelled

  /** The stored value of a status. */
  function StatusCode(s: Status): string {
    match s
    case Pending => "pending"
    case Processing => "processing"
    case Shipped => "shipped"
    case Delivered => "delivered"
    case Cancelled => "cancelled"
  }

  /** The status a stored value stands for; anything but the five choices is rejected. */
  function ParseStatus(code: string): Option<Status> {
    if code == "pending" then Some(Pending)
    else if code == "processing" then Some(Processing)
    else if code == "shipped" then Some(Shipped)
    else if code == "delivered" then Some(Delivered)
    else if code == "cancelled" then Some(Cancelled)
    else None
  }

  /** The stored values and the choices are in one-to-one correspondence. */
  lemma StatusCodeRoundTrip(s: Status, code: string)
    ensures ParseStatus(StatusCode(s)) == Some(s)
    ensures ParseStatus(code) == Some(s) <==> code == StatusCode(s)
  {
  }

  /** `shipping_fee` default, 5.00. */
  const DefaultShippingFee: int := 500

  // ---------------------------------------------------------------------------
  // Order numbers

  /** A hexadecimal digit of a random UUID. */
  type Nibble = n: nat | n < 16

  /** The calendar date read from the clock. */
  datatype Date = Date(year: nat, month: nat, day: nat)

  /** A date `%Y%m%d` renders in exactly eight digits. */
  predicate ValidDate(d: Date) {
    1000 <= d.year <= 9999 && 1 <= d.month <= 12 && 1 <= d.day <= 31
  }

  function Pow10(k: nat): (p: nat)
    ensures p >= 1
  {
    if k == 0 then 1 else 10 * Pow10(k - 1)
  }

  /** `n` in exactly `width` decimal digits, zero-padded (the low `width` digits of `n`). */
  function Padded(n: nat, width: nat): (s: string)
    ensures |s| == width && AllDigits(s)
  {
    if width == 0 then "" else Padded(n / 10, width - 1) + [DigitChar(n % 10)]
  }

  /** The number a digit string denotes. */
  function ValueOf(s: string): nat
    requires AllDigits(s)
  {
    if s == [] then 0 else ValueOf(s[..|s| - 1]) * 10 + DigitValue(s[|s| - 1])
  }

  lemma {:induction false} PaddedValue(n: nat, width: nat)
    requires n < Pow10(width)
    ensures ValueOf(Padded(n, width)) == n
  {
    if width > 0 {
      var s := Padded(n, width);
      assert s[..|s| - 1] == Padded(n / 10, width - 1);
      PaddedValue(n / 10, width - 1);
      assert DigitValue(s[|s| - 1]) == n % 10;
    }
  }

  const UpperHex: string := "0123456789ABCDEF"

  predicate IsUpperHex(c: char) {
    c in UpperHex
  }

  function HexValue(c: char): (n: Nibble)
    requires IsUpperHex(c)
    ensures UpperHex[n] == c
  {
    if '0' <= c <= '9' then (c as int - '0' as int) as nat else (c as int - 'A' as int + 10) as nat
  }

  /** `date.strftime('%Y%m%d')`. */
  function DateText(date: Date): (t: string)
    requires ValidDate(date)
    ensures |t| == 8 && AllDigits(t[..4]) && AllDigits(t[4..6]) && AllDigits(t[6..])
  {
    var t := Padded(date.year, 4) + Padded(date.month, 2) + Padded(date.day, 2);
    assert t[..4] == Padded(date.year, 4) && t[4..6] == Padded(date.month, 2) && t[6..] == Padded(date.day, 2);
    t
  }

  /** `str(uuid4())[:8].upper()`: the first eight hex digits of the UUID's text. */
  function HexText(uniqueId: seq<Nibble>): (t: string)
    requires |uniqueId| >= 8
    ensures |t| == 8 && forall i :: 0 <= i < 8 ==> IsUpperHex(t[i])
  {
    seq(8, i requires 0 <= i < 8 => UpperHex[uniqueId[i]])
  }

  /** `f"ORD-{date_str}-{unique_id}"`. */
  function GenerateOrderNumber(date: Date, uniqueId: seq<Nibble>): (r: string)
    requires ValidDate(date) && |uniqueId| >= 8
    ensures |r| == 21 && r[..4] == "ORD-" && r[4..12] == DateText(date) && r[12] == '-'
    ensures r[13..] == HexText(uniqueId)
  {
    "ORD-" + DateText(date) + "-" + HexText(uniqueId)
  }

  predicate DateShaped(t: string) {
    |t| == 8 && AllDigits(t[..4]) && AllDigits(t[4..6]) && AllDigits(t[6..])
  }

  function ParseDate(t: string): Date
    requires DateShaped(t)
  {
    Date(ValueOf(t[..4]), ValueOf(t[4..6]), ValueOf(t[6..]))
  }

  predicate HexShaped(t: string) {
    |t| == 8 && forall i :: 0 <= i < 8 ==> IsUpperHex(t[i])
  }

  function ParseHex(t: string): seq<Nibble>
    requires HexShaped(t)
  {
    seq(8, i requires 0 <= i < 8 => HexValue(t[i]))
  }

  /** Reads back the date and the UUID prefix of an order number. */
  function ParseOrderNumber(s: string): Option<(Date, seq<Nibble>)> {
    if |s| == 21 && s[..4] == "ORD-" && DateShaped(s[4..12]) && s[12] == '-' && HexShaped(s[13..])
    then Some((ParseDate(s[4..12]), ParseHex(s[13..])))
    else None
  }

  lemma DateRoundTrip(date: Date)
    requires ValidDate(date)
    ensures DateShaped(DateText(date)) && ParseDate(DateText(date)) == date
  {
    var t := DateText(date);
    assert t[..4] == Padded(date.year, 4) && t[4..6] == Padded(date.month, 2) && t[6..] == Padded(date.day, 2);
    assert Pow10(2) == 100 && Pow10(4) == 10000;
    PaddedValue(date.year, 4);
    PaddedValue(date.month, 2);
    PaddedValue(date.day, 2);
  }

  lemma HexRoundTrip(uniqueId: seq<Nibble>)
    requires |uniqueId| >= 8
    ensures HexShaped(HexText(uniqueId)) && ParseHex(HexText(uniqueId)) == uniqueId[..8]
  {
    var t := HexText(uniqueId);
    forall i | 0 <= i < 8
      ensures HexValue(t[i]) == uniqueId[i]
    {
      assert UpperHex[HexValue(t[i])] == UpperHex[uniqueId[i]];
    }
  }

  /** The date and the eight UUID digits can be read back from a generated number. */
  lemma OrderNumberRoundTrip(date: Date, uniqueId: seq<Nibble>)
    requires ValidDate(date) && |uniqueId| >= 8
    ensures ParseOrderNumber(GenerateOrderNumber(date, uniqueId)) == Some((date, uniqueId[..8]))
  {
    DateRoundTrip(date);
    HexRoundTrip(uniqueId);
  }

  /** Numbers from different dates or different UUID prefixes differ. */
  lemma OrderNumberInjective(d1: Date, u1: seq<Nibble>, d2: Date, u2: seq<Nibble>)
    requires ValidDate(d1) && |u1| >= 8 && ValidDate(d2) && |u2| >= 8
    requires GenerateOrderNumber(d1, u1) == GenerateOrderNumber(d2, u2)
    ensures d1 == d2 && u1[..8] == u2[..8]
  {
    OrderNumberRoundTrip(d1, u1);
    OrderNumberRoundTrip(d2, u2);
  }

  // ---------------------------------------------------------------------------
  // The rows

  class Order {
    const id: int
    const user: int
    var orderNumber: string
    var status: Status
    var shippingAddress: string
    var notes: string
    var subtotal: int
    var shippingFee: int
    var total: int

    /** A new row with the field defaults: pending, 5.00 shipping, zero money, no number yet. */
    constructor (id: int, user: int, shippingAddress: string, notes: string)
      ensures this.id == id && this.user == user
      ensures this.shippingAddress == shippingAddress && this.notes == notes
      ensures orderNumber == "" && status == Pending
      ensures subtotal == 0 && shippingFee == DefaultShippingFee && total == 0
    {
      this.id := id;
      this.user := user;
      this.shippingAddress := shippingAddress;
      this.notes := notes;
      orderNumber := "";
      status := Pending;
      subtotal := 0;
      shippingFee := DefaultShippingFee;
      total := 0;
    }

    /**
     * `save()`: a number is generated only when there is none, and the total is
     * computed only while it is zero; nothing else changes.
     */
    method Save(date: Date, uniqueId: seq<Nibble>)
      requires ValidDate(date) && |uniqueId| >= 8
      modifies this
      ensures orderNumber == if old(orderNumber) == "" then GenerateOrderNumber(date, uniqueId) else old(orderNumber)
      ensures total == if old(total) == 0 then old(subtotal) + old(shippingFee) else old(total)
      ensures orderNumber != ""
      ensures status == old(status) && shippingAddress == old(shippingAddress) && notes == old(notes)
      ensures subtotal == old(subtotal) && shippingFee == old(shippingFee)
    {
      if orderNumber == "" {
        orderNumber := GenerateOrderNumber(date, uniqueId);
      }
      if total == 0 {
        total := subtotal + shippingFee;
      }
    }
  }

  class OrderItem {
    const order: Order
    const product: int
    var quantity: nat
    var price: int
    var subtotal: int

    constructor (order: Order, product: int, quantity: nat, price: int)
      ensures this.order == order && this.product == product && this.quantity == quantity && this.price == price
    {
      this.order := order;
      this.product := product;
      this.quantity := quantity;
      this.price := price;
    }

    /** `save()`: the subtotal is recomputed from quantity and price, whatever it held. */
    method Save()
      modifies this
      ensures subtotal == quantity * price
      ensures quantity == old(quantity) && price == old(price)
    {
      subtotal := quantity * price;
    }

    /** The (buyer, product, order status) row the review checks query. */
    function AsPurchase(): Purchase
      reads order
    {
      Purchase(order.user, product, order.status)
    }
  }

  /** A row of order items joined with their orders: who bought what, in what state. */
  datatype Purchase = Purchase(user: int, product: int, status: Status)
}

=== FILE: orders_serializers.dfy ===
/**
 * orders/serializers.py, `OrderCreateSerializer.create`: turns the requester's cart
 * into an order. An empty cart is refused; otherwise each line becomes one order
 * item priced at the product's current price, the order's subtotal is the sum of
 * the item subtotals, its total adds the shipping fee, and the cart is emptied.
 */
module OrderSerializers {
  import opened Wrappers
  import opened Catalog
  import opened CartViews
  import opened OrderModels

  datatype CreateError =
    | CartEmpty                                              // ValidationError "Cart is empty"
    | TypeErrorAfterSave(order: Order, items: seq<OrderItem>)  // a server error; these rows stay written

  // ---------------------------------------------------------------------------
  // Python numbers in memory (orders/serializers.py:55-57)

  /**
   * The Python type of an in-memory money value, with its amount in cents. A model
   * instance keeps a field default as written: `default=5.00` is a `float`,
   * `default=0` an `int`, while values read back from the database are `Decimal`s.
   */
  datatype PyNumber = PyInt(cents: int) | PyDecimal(cents: int) | PyFloat(cents: int)

  /** `a + b`; `None` is the `TypeError` Python raises for a `Decimal` and a `float`. */
  function PyAdd(a: PyNumber, b: PyNumber): (r: Option<PyNumber>)
    ensures r.None? <==> (a.PyDecimal? && b.PyFloat?) || (a.PyFloat? && b.PyDecimal?)
    ensures r.Some? ==> r.value.cents == a.cents + b.cents
    ensures r.Some? && (a.PyDecimal? || b.PyDecimal?) ==> r.value.PyDecimal?
  {
    if (a.PyDecimal? && b.PyFloat?) || (a.PyFloat? && b.PyDecimal?) then None
    else if a.PyDecimal? || b.PyDecimal? then Some(PyDecimal(a.cents + b.cents))
    else if a.PyFloat? || b.PyFloat? then Some(PyFloat(a.cents + b.cents))
    else Some(PyInt(a.cents + b.cents))
  }

  /** `sum(xs)`: left to right from the `int` 0; `None` once an addition raises. */
  function PySum(xs: seq<PyNumber>): Option<PyNumber> {
    if xs == [] then Some(PyInt(0))
    else match PySum(xs[..|xs| - 1])
      case None => None
      case Some(s) => PyAdd(s, xs[|xs| - 1])
  }

  /** The item subtotals as `order.items.all()` reads them back: `Decimal`s. */
  function StoredSubtotals(mine: seq<CartLine>, catalog: Products): (xs: seq<PyNumber>)
    ensures |xs| == |mine|
    ensures forall i :: 0 <= i < |xs| ==> xs[i] == PyDecimal(Subtotal(mine[i], catalog))
  {
    seq(|mine|, i requires 0 <= i < |mine| => PyDecimal(Subtotal(mine[i], catalog)))
  }

  /** Lines 56-57 as written: the summed subtotals plus the in-memory shipping fee, a `float`. */
  function OrderTotalAsWritten(subtotals: seq<PyNumber>): Option<PyNumber> {
    match PySum(subtotals)
    case None => None
    case Some(s) => PyAdd(s, PyFloat(DefaultShippingFee))
  }

  /** Lines 56-57 with the fee as the `Decimal` the field stores. */
  function OrderTotalIntended(subtotals: seq<PyNumber>): Option<PyNumber> {
    match PySum(subtotals)
    case None => None
    case Some(s) => PyAdd(s, PyDecimal(DefaultShippingFee))
  }

  /** The cents of a run of numbers, summed. */
  function CentsTotal(xs: seq<PyNumber>): int {
    if xs == [] then 0 else CentsTotal(xs[..|xs| - 1]) + xs[|xs| - 1].cents
  }

  /** Summing a non-empty run of `Decimal`s gives a `Decimal` holding their total. */
  lemma {:induction false} SumOfDecimals(xs: seq<PyNumber>)
    requires forall i :: 0 <= i < |xs| ==> xs[i].PyDecimal?
    ensures xs == [] ==> PySum(xs) == Some(PyInt(0))
    ensures xs != [] ==> PySum(xs) == Some(PyDecimal(CentsTotal(xs)))
    decreases |xs|
  {
    if xs != [] {
      SumOfDecimals(xs[..|xs| - 1]);
    }
  }

  /**
   * As written, the total raises for every non-empty cart: a `Decimal` subtotal plus
   * the `float` fee. Only an empty sum, the `int` 0, would add up.
   */
  lemma DecimalSubtotalPlusFloatFeeRaises(subtotals: seq<PyNumber>)
    requires forall i :: 0 <= i < |subtotals| ==> subtotals[i].PyDecimal?
    ensures OrderTotalAsWritten(subtotals).None? <==> subtotals != []
  {
    SumOfDecimals(subtotals);
  }

  /** With a `Decimal` fee the total is the `Decimal` sum of the subtotals and the fee. */
  lemma DecimalFeeAddsUp(subtotals: seq<PyNumber>)
    requires forall i :: 0 <= i < |subtotals| ==> subtotals[i].PyDecimal?
    ensures OrderTotalIntended(subtotals) == Some(PyDecimal(CentsTotal(subtotals) + DefaultShippingFee))
  {
    SumOfDecimals(subtotals);
  }

  /** The stored subtotals add up to the cart lines' total. */
  lemma {:induction false} StoredSubtotalsTotal(mine: seq<CartLine>, catalog: Products)
    ensures CentsTotal(StoredSubtotals(mine, catalog)) == LinesTotal(mine, catalog)
    decreases |mine|
  {
    if mine != [] {
      var init := mine[..|mine| - 1];
      StoredSubtotalsTotal(init, catalog);
      assert StoredSubtotals(mine, catalog)[..|mine| - 1] == StoredSubtotals(init, catalog);
    }
  }

  /**
   * With the `Decimal` fee, lines 56-57 compute what `CreateOrder` stores: the cart
   * lines' total plus the shipping fee.
   */
  lemma IntendedTotalIsCartTotal(mine: seq<CartLine>, catalog: Products)
    ensures OrderTotalIntended(StoredSubtotals(mine, catalog))
         == Some(PyDecimal(LinesTotal(mine, catalog) + DefaultShippingFee))
  {
    DecimalFeeAddsUp(StoredSubtotals(mine, catalog));
    StoredSubtotalsTotal(mine, catalog);
  }

  // ---------------------------------------------------------------------------
  // Creating an order

  /** Item `i` is the order item made from cart line `line`. */
  ghost predicate ItemFromLine(item: OrderItem, order: Order, line: CartLine, catalog: Products)
    reads item
  {
    && item.order == order && item.product == line.product && item.quantity == line.quantity
    && item.price == PriceOf(catalog, line.product) && item.subtotal == Subtotal(line, catalog)
  }

  /** The `for cart_item in cart.items.all()` loop: one saved item per line, in order. */
  method MakeItems(order: Order, mine: seq<CartLine>, catalog: Products) returns (items: seq<OrderItem>)
    requires PositiveQuantities(mine)
    ensures |items| == |mine|
    ensures forall i :: 0 <= i < |items| ==> fresh(items[i]) && ItemFromLine(items[i], order, mine[i], catalog)
  {
    items := [];
    var i := 0;
    while i < |mine|
      invariant 0 <= i <= |mine| && |items| == i
      invariant forall j :: 0 <= j < i ==> fresh(items[j])
      invariant forall j :: 0 <= j < i ==> ItemFromLine(items[j], order, mine[j], catalog)
    {
      var line := mine[i];
      var item := new OrderItem(order, line.product, line.quantity, PriceOf(catalog, line.product));
      item.Save();
      items := items + [item];
      i := i + 1;
    }
  }

  /** `sum(item.subtotal for item in order.items.all())`. */
  method SumSubtotals(items: seq<OrderItem>, ghost order: Order, ghost mine: seq<CartLine>, catalog: Products)
    returns (sum: int)
    requires |items| == |mine|
    requires forall i :: 0 <= i < |items| ==> ItemFromLine(items[i], order, mine[i], catalog)
    ensures sum == LinesTotal(mine, catalog)
  {
    sum := 0;
    var i := 0;
    while i < |items|
      invariant 0 <= i <= |items|
      invariant sum == LinesTotal(mine[..i], catalog)
    {
      assert mine[..i + 1][..i] == mine[..i];
      sum := sum + items[i].subtotal;
      i := i + 1;
    }
    assert mine[..i] == mine;
  }

  method CreateOrder(cart: CartTable, catalog: Products, user: int, orderId: int, shippingAddress: string,
                     notes: string, date: Date, uniqueId: seq<Nibble>)
    returns (r: Result<(Order, seq<OrderItem>), CreateError>)
    requires cart.Valid() && ValidDate(date) && |uniqueId| >= 8
    modifies cart
    ensures cart.Valid()
    ensures UserLines(old(cart.lines), user) == [] ==> r == Failure(CartEmpty) && cart.lines == old(cart.lines)
    ensures UserLines(old(cart.lines), user) != [] ==> r.Success? && cart.lines == WithoutUser(old(cart.lines), user)
    ensures r.Success? ==>
      var order, items := r.value.0, r.value.1;
      var mine := UserLines(old(cart.lines), user);
      && fresh(order) && order.id == orderId && order.user == user
      && order.shippingAddress == shippingAddress && order.notes == notes && order.status == Pending
      && order.orderNumber == GenerateOrderNumber(date, uniqueId)
      && |items| == |mine|
      && (forall i :: 0 <= i < |items| ==> fresh(items[i]) && ItemFromLine(items[i], order, mine[i], catalog))
      && order.subtotal == CartTotal(old(cart.lines), catalog, user)
      && order.shippingFee == DefaultShippingFee
      && order.total == order.subtotal + DefaultShippingFee
  {
    var mine := UserLines(cart.lines, user);
    if mine == [] {
      return Failure(CartEmpty);
    }
    // Order.objects.create(user=user, **validated_data)
    var order := new Order(orderId, user, shippingAddress, notes);
    order.Save(date, uniqueId);

    var items := MakeItems(order, mine, catalog);
    var sum := SumSubtotals(items, order, mine, catalog);
    CartTotalOfUserLines(cart.lines, catalog, user);

    order.subtotal := sum;
    order.total := order.subtotal + order.shippingFee;
    order.Save(date, uniqueId);

    cart.ClearUser(user);
    r := Success((order, items));
  }

  /**
   * `create` as written. `Order.objects.create` saves the order with subtotal 0 and
   * total 5.00, then the items are saved; line 57 then adds the `float` fee to the
   * `Decimal` subtotal and raises. Nothing is rolled back, and the cart is not cleared.
   */
  method CreateOrderAsWritten(cart: CartTable, catalog: Products, user: int, orderId: int, shippingAddress: string,
                              notes: string, date: Date, uniqueId: seq<Nibble>)
    returns (r: Result<(Order, seq<OrderItem>), CreateError>)
    requires cart.Valid() && ValidDate(date) && |uniqueId| >= 8
    modifies cart
    ensures cart.lines == old(cart.lines)
    ensures UserLines(old(cart.lines), user) == [] ==> r == Failure(CartEmpty)
    ensures UserLines(old(cart.lines), user) != [] ==>
      r.Failure? && r.error.TypeErrorAfterSave? &&
      var order, items := r.error.order, r.error.items;
      var mine := UserLines(old(cart.lines), user);
      && fresh(order) && order.id == orderId && order.user == user
      && order.orderNumber == GenerateOrderNumber(date, uniqueId)
      && order.subtotal == 0 && order.total == DefaultShippingFee
      && |items| == |mine|
      && (forall i :: 0 <= i < |items| ==> fresh(items[i]) && ItemFromLine(items[i], order, mine[i], catalog))
  {
    var mine := UserLines(cart.lines, user);
    if mine == [] {
      return Failure(CartEmpty);
    }
    var order := new Order(orderId, user, shippingAddress, notes);
    order.Save(date, uniqueId);
    var items := MakeItems(order, mine, catalog);
    // order.subtotal = sum(...); order.total = order.subtotal + order.shipping_fee
    assert OrderTotalAsWritten(StoredSubtotals(mine, catalog)).None? by {
      DecimalSubtotalPlusFloatFeeRaises(StoredSubtotals(mine, catalog));
    }
    r := Failure(TypeErrorAfterSave(order, items));
  }
}

=== FILE: orders_views.dfy ===
/**
 * orders/views.py: the requester's orders, the pagination metadata of the list,
 * and the ownership check of the detail view. The page size of the pagination
 * class is a positive parameter; rows come in the model's `-created_at` order.
 */
module OrderViews {
  import opened Wrappers
  import opened OrderModels

  /** `Order.objects.filter(user=self.request.user)`, keeping the table order. */
  function OwnedOrders(orders: seq<Order>, user: int): (r: seq<Order>)
    ensures |r| <= |orders|
    ensures forall i :: 0 <= i < |r| ==> r[i] in orders && r[i].user == user
    ensures forall i :: 0 <= i < |orders| && orders[i].user == user ==> orders[i] in r
  {
    if orders == [] then []
    else (if orders[0].user == user then [orders[0]] else []) + OwnedOrders(orders[1..], user)
  }

  /** The filter keeps table order: the owned rows of two tables in turn are those of the joined table. */
  lemma {:induction false} OwnedOrdersConcat(a: seq<Order>, b: seq<Order>, user: int)
    ensures OwnedOrders(a + b, user) == OwnedOrders(a, user) + OwnedOrders(b, user)
  {
    if a != [] {
      assert (a + b)[1..] == a[1..] + b;
      OwnedOrdersConcat(a[1..], b, user);
    } else {
      assert a + b == b;
    }
  }

  // ---------------------------------------------------------------------------
  // Pagination

  /**
   * `count // page_size + 1`, as the list view reports `total_pages`: one page more
   * than the paginator has whenever the count is a positive multiple of the page
   * size, and the paginator's count otherwise.
   */
  function TotalPagesAsWritten(count: nat, pageSize: nat): (n: nat)
    requires pageSize > 0
    ensures count > 0 && count % pageSize == 0 ==> n == PageCount(count, pageSize) + 1
    ensures count == 0 || count % pageSize != 0 ==> n == PageCount(count, pageSize)
  {
    if count > 0 && count % pageSize == 0 then
      ExactMultiplePages(count, pageSize);
      count / pageSize + 1
    else if count > 0 then
      PartialLastPage(count, pageSize);
      count / pageSize + 1
    else
      count / pageSize + 1
  }

  /**
   * The paginator's number of pages, ceil(count / pageSize) but at least one: one
   * page holds up to `pageSize` rows and the rest go on the following pages.
   */
  function PageCount(count: nat, pageSize: nat): (n: nat)
    requires pageSize > 0
    ensures n >= 1
    decreases count
  {
    if count <= pageSize then 1 else 1 + PageCount(count - pageSize, pageSize)
  }

  /** The pages hold every row, and the last page is not empty unless there are no rows. */
  lemma {:induction false} PageCountBounds(count: nat, pageSize: nat)
    requires pageSize > 0
    ensures count <= PageCount(count, pageSize) * pageSize
    ensures count > 0 ==> (PageCount(count, pageSize) - 1) * pageSize < count
    decreases count
  {
    if count > pageSize {
      PageCountBounds(count - pageSize, pageSize);
      var n := PageCount(count - pageSize, pageSize);
      assert (n + 1) * pageSize == n * pageSize + pageSize;
    }
  }

  /** The rows on page `page` (1-based). */
  function PageOf<T>(rows: seq<T>, pageSize: nat, page: nat): (r: seq<T>)
    requires pageSize > 0 && page >= 1
    ensures |r| <= pageSize
  {
    var start := (page - 1) * pageSize;
    if start >= |rows| then []
    else rows[start..if start + pageSize <= |rows| then start + pageSize else |rows|]
  }

  datatype PaginationMeta = PaginationMeta(total: nat, count: nat, perPage: nat, currentPage: nat, totalPages: nat)

  datatype ListError = InvalidPage   // the paginator's 404 for a page outside 1..num_pages

  /**
   * `list`: the requested page (`page` absent means 1) of the requester's orders and
   * its metadata; a page the paginator does not have is refused.
   */
  function ListOrders(orders: seq<Order>, user: int, pageSize: nat, page: Option<int>)
    : (r: Result<(seq<Order>, PaginationMeta), ListError>)
    requires pageSize > 0
    ensures r.Failure? <==> page.GetOr(1) < 1 || page.GetOr(1) > PageCount(|OwnedOrders(orders, user)|, pageSize)
    ensures r.Success? ==>
      && |r.value.0| <= pageSize
      && (forall i :: 0 <= i < |r.value.0| ==> r.value.0[i] in orders && r.value.0[i].user == user)
      && r.value.1.total == |OwnedOrders(orders, user)| && r.value.1.count == |r.value.0|
      && r.value.1.perPage == pageSize && r.value.1.currentPage == page.GetOr(1)
      && r.value.1.totalPages == PageCount(|OwnedOrders(orders, user)|, pageSize)
    ensures r.Success? ==> var owned := OwnedOrders(orders, user); var start := (page.GetOr(1) - 1) * pageSize;
      forall i :: 0 <= i < |r.value.0| ==> 0 <= start + i < |owned| && r.value.0[i] == owned[start + i]
  {
    var owned := OwnedOrders(orders, user);
    var p := page.GetOr(1);
    if p < 1 || p > PageCount(|owned|, pageSize) then Failure(InvalidPage)
    else
      var results := PageOf(owned, pageSize, p);
      PageSlice(owned, pageSize, p);
      Success((results, PaginationMeta(|owned|, |results|, pageSize, p, PageCount(|owned|, pageSize))))
  }

  // Multiplication facts, by induction.

  lemma {:induction false} MulNonneg(a: nat, c: nat)
    ensures a * c >= 0
  {
    if a > 0 {
      MulNonneg(a - 1, c);
      assert a * c == (a - 1) * c + c;
    }
  }

  lemma MulMonotone(a: nat, b: nat, c: nat)
    requires a <= b
    ensures a * c <= b * c
  {
    MulNonneg(b - a, c);
    assert b * c - a * c == (b - a) * c;
  }

  /** A page size of rows per page, plus a partial (or full) last page. */
  lemma {:induction false} PageCountOf(k: nat, m: nat, pageSize: nat)
    requires 0 < m <= pageSize
    ensures PageCount(k * pageSize + m, pageSize) == k + 1
  {
    if k > 0 {
      MulNonneg(k - 1, pageSize);
      assert k * pageSize + m - pageSize == (k - 1) * pageSize + m;
      PageCountOf(k - 1, m, pageSize);
    }
  }

  /** Where the served page starts: a full page before the last, a non-empty last page. */
  lemma PageLength(count: nat, pageSize: nat, p: nat)
    requires pageSize > 0 && 1 <= p <= PageCount(count, pageSize)
    ensures 0 <= (p - 1) * pageSize
    ensures p < PageCount(count, pageSize) ==> (p - 1) * pageSize + pageSize <= count
    ensures count > 0 ==> (p - 1) * pageSize < count
  {
    var n := PageCount(count, pageSize);
    PageCountBounds(count, pageSize);
    MulNonneg(p - 1, pageSize);
    if p < n {
      MulMonotone(p, n - 1, pageSize);
      assert (p - 1) * pageSize + pageSize == p * pageSize;
    }
    if count > 0 {
      MulMonotone(p - 1, n - 1, pageSize);
    }
  }

  /** A page the paginator has is a run of consecutive rows, full unless it is the last, and not empty. */
  lemma PageSlice<T>(rows: seq<T>, pageSize: nat, p: nat)
    requires pageSize > 0 && 1 <= p <= PageCount(|rows|, pageSize)
    ensures var r := PageOf(rows, pageSize, p);
      && (forall i :: 0 <= i < |r| ==> 0 <= (p - 1) * pageSize + i < |rows| && r[i] == rows[(p - 1) * pageSize + i])
      && (p < PageCount(|rows|, pageSize) ==> |r| == pageSize)
      && (|rows| > 0 ==> |r| >= 1)
  {
    PageLength(|rows|, pageSize, p);
  }

  /**
   * Every page the list serves is the p-th run of the requester's orders in table
   * order, at most one page size of them, and the metadata reports the paginator's
   * page count; each page before the last is full, and the last page is not empty
   * unless there are no orders at all.
   */
  lemma ServedPages(orders: seq<Order>, user: int, pageSize: nat, page: Option<int>)
    requires pageSize > 0
    ensures var owned := OwnedOrders(orders, user);
      var p := page.GetOr(1);
      match ListOrders(orders, user, pageSize, page)
      case Failure(_) => p < 1 || p > PageCount(|owned|, pageSize)
      case Success((results, meta)) =>
        && 1 <= p <= meta.totalPages && meta.currentPage == p
        && meta.total == |owned| && meta.count == |results| && meta.perPage == pageSize
        && meta.totalPages == PageCount(|owned|, pageSize)
        && (forall i :: 0 <= i < |results| ==> results[i] in orders && results[i].user == user)
        && (forall i :: 0 <= i < |results| ==>
              0 <= (p - 1) * pageSize + i < |owned| && results[i] == owned[(p - 1) * pageSize + i])
        && |results| <= pageSize
        && (p < meta.totalPages ==> |results| == pageSize)
        && (|owned| > 0 ==> |results| >= 1)
  {
    var owned := OwnedOrders(orders, user);
    var p := page.GetOr(1);
    if 1 <= p <= PageCount(|owned|, pageSize) {
      var results := PageOf(owned, pageSize, p);
      PageSlice(owned, pageSize, p);
      assert ListOrders(orders, user, pageSize, page)
          == Success((results, PaginationMeta(|owned|, |results|, pageSize, p, PageCount(|owned|, pageSize))));
    }
  }

  /** A positive multiple of the page size fills exactly `count / pageSize` pages. */
  lemma ExactMultiplePages(count: nat, pageSize: nat)
    requires pageSize > 0 && count > 0 && count % pageSize == 0
    ensures PageCount(count, pageSize) == count / pageSize
  {
    var k := count / pageSize;
    assert count == pageSize * k;
    assert k >= 1;
    assert count == (k - 1) * pageSize + pageSize;
    PageCountOf(k - 1, pageSize, pageSize);
  }

  /** 20 orders in pages of 10 report 3 pages, and page 3 is refused. */
  lemma TwentyOrdersInPagesOfTen(orders: seq<Order>, user: int)
    requires |OwnedOrders(orders, user)| == 20
    ensures TotalPagesAsWritten(20, 10) == 3
    ensures ListOrders(orders, user, 10, Some(3)) == Failure(InvalidPage)
  {
    PageCountOf(1, 10, 10);
  }

  /** A count with a partial last page fills `count / pageSize` pages and part of one more. */
  lemma PartialLastPage(count: nat, pageSize: nat)
    requires pageSize > 0 && count > 0 && count % pageSize != 0
    ensures PageCount(count, pageSize) == count / pageSize + 1
  {
    var k, m := Euclid(count, pageSize);
    PageCountOf(k, m, pageSize);
  }

  /** The quotient and remainder of `//` and `%` on naturals. */
  lemma Euclid(count: nat, pageSize: nat) returns (k: nat, m: nat)
    requires pageSize > 0
    ensures k == count / pageSize && m == count % pageSize
    ensures count == k * pageSize + m && m < pageSize
  {
    k, m := count / pageSize, count % pageSize;
    assert count == pageSize * k + m;
    assert pageSize * k == k * pageSize;
  }

  // ---------------------------------------------------------------------------
  // Detail

  datatype DetailError = NotFound | PermissionDenied

  /** `get_object_or_404(Order, id=...)`. */
  function FindOrder(orders: seq<Order>, id: int): (r: Option<Order>)
    ensures r.Some? ==> r.value in orders && r.value.id == id
    ensures r.None? <==> forall i :: 0 <= i < |orders| ==> orders[i].id != id
  {
    if orders == [] then None
    else if orders[0].id == id then Some(orders[0])
    else FindOrder(orders[1..], id)
  }

  /** Primary keys are unique. */
  ghost predicate UniqueIds(orders: seq<Order>) {
    forall i, j :: 0 <= i < j < |orders| ==> orders[i].id != orders[j].id
  }

  /** `get_object`: a missing id is 404, someone else's order is PermissionDenied. */
  function GetOrder(orders: seq<Order>, id: int, user: int): (r: Result<Order, DetailError>)
    ensures r == Failure(NotFound) <==> forall i :: 0 <= i < |orders| ==> orders[i].id != id
    ensures r.Success? ==> r.value in orders && r.value.id == id && r.value.user == user
  {
    match FindOrder(orders, id)
    case None => Failure(NotFound)
    case Some(o) => if o.user != user then Failure(PermissionDenied) else Success(o)
  }

  /**
   * With unique ids, the detail view serves exactly the requester's own order with
   * that id: it is 404 when no order has the id and PermissionDenied when the order
   * with the id belongs to someone else.
   */
  lemma DetailOnlyForOwner(orders: seq<Order>, id: int, user: int)
    requires UniqueIds(orders)
    ensures var r := GetOrder(orders, id, user);
      && (r == Failure(NotFound) <==> forall o :: o in orders ==> o.id != id)
      && (r == Failure(PermissionDenied) <==> exists o :: o in orders && o.id == id && o.user != user)
      && (r.Success? <==> exists o :: o in OwnedOrders(orders, user) && o.id == id)
      && (r.Success? ==> r.value in OwnedOrders(orders, user) && r.value.id == id)
  {
    match FindOrder(orders, id)
    case None =>
    case Some(o) =>
      forall o' | o' in orders && o'.id == id
        ensures o' == o
      {
        var i :| 0 <= i < |orders| && orders[i] == o';
        var j :| 0 <= j < |orders| && orders[j] == o;
        assert !(i < j) && !(j < i);
      }
  }
}

=== FILE: products_views.dfy ===
/**
 * products/views.py: the catalog list's filter chain, `like_product` and
 * `create_review`. Query parameters arrive parsed: a number parameter is present
 * only when it was given non-empty, prices are integer cents, and `attributes` is
 * the outcome of `json.loads`.
 */
module ProductViews {
  import opened Wrappers
  import opened Catalog
  import opened OrderModels
  import opened ReviewModels
  import opened ReviewSerializers

  /** The `attributes` parameter after `json.loads`. */
  datatype AttributesParam =
    | Malformed                               // JSONDecodeError, swallowed
    | Object(pairs: seq<(string, Scalar)>)    // a JSON object: its items in order
    | NotAnObject                             // valid JSON without `.items()`: the view raises

  datatype ProductQuery = ProductQuery(
    category: Option<int>,
    minPrice: Option<int>,
    maxPrice: Option<int>,
    attributes: Option<AttributesParam>)

  /** One `queryset.filter(...)` of the chain. */
  datatype Filter =
    | CategoryIs(id: int)                 // category_id=category
    | PriceAtLeast(cents: int)            // price__gte=min_price
    | PriceAtMost(cents: int)             // price__lte=max_price
    | Contains(key: string, value: Scalar)   // attributes__contains={key: value}

  predicate Holds(p: Product, f: Filter) {
    match f
    case CategoryIs(id) => p.categoryId == id
    case PriceAtLeast(c) => p.price >= c
    case PriceAtMost(c) => p.price <= c
    case Contains(k, v) => k in p.attributes && p.attributes[k] == v
  }

  /** `queryset.filter(f)`: the rows that satisfy `f`, in order. */
  function Where(rows: seq<Product>, f: Filter): (r: seq<Product>)
    ensures |r| <= |rows|
  {
    if rows == [] then []
    else (if Holds(rows[0], f) then [rows[0]] else []) + Where(rows[1..], f)
  }

  /** The filters applied one after the other, in the order given. */
  function WhereAll(rows: seq<Product>, fs: seq<Filter>): seq<Product> {
    if fs == [] then rows else Where(WhereAll(rows, fs[..|fs| - 1]), fs[|fs| - 1])
  }

  predicate HoldsAll(p: Product, fs: seq<Filter>) {
    forall i :: 0 <= i < |fs| ==> Holds(p, fs[i])
  }

  /** The rows satisfying every filter at once, in order. */
  function Select(rows: seq<Product>, fs: seq<Filter>): (r: seq<Product>)
    ensures forall p :: p in r <==> p in rows && HoldsAll(p, fs)
  {
    if rows == [] then []
    else (if HoldsAll(rows[0], fs) then [rows[0]] else []) + Select(rows[1..], fs)
  }

  function ContainsFilters(pairs: seq<(string, Scalar)>): (fs: seq<Filter>)
    ensures |fs| == |pairs|
    ensures forall i :: 0 <= i < |pairs| ==> fs[i] == Contains(pairs[i].0, pairs[i].1)
  {
    seq(|pairs|, i requires 0 <= i < |pairs| => Contains(pairs[i].0, pairs[i].1))
  }

  /** The category and price steps of the chain, in the order `get_queryset` applies them. */
  function BaseFilters(q: ProductQuery): seq<Filter> {
    (if q.category.Some? then [CategoryIs(q.category.value)] else [])
    + (if q.minPrice.Some? then [PriceAtLeast(q.minPrice.value)] else [])
    + (if q.maxPrice.Some? then [PriceAtMost(q.maxPrice.value)] else [])
  }

  /** The containment steps of a JSON-object `attributes`; none otherwise. */
  function AttributeFilters(q: ProductQuery): seq<Filter> {
    if q.attributes.Some? && q.attributes.value.Object? then ContainsFilters(q.attributes.value.pairs) else []
  }

  /** The chain `get_queryset` builds for a query. */
  function Filters(q: ProductQuery): seq<Filter> {
    BaseFilters(q) + AttributeFilters(q)
  }

  /** What a product must satisfy to be listed: each given parameter is one condition. */
  predicate Matches(p: Product, q: ProductQuery) {
    && (q.category.Some? ==> p.categoryId == q.category.value)
    && (q.minPrice.Some? ==> p.price >= q.minPrice.value)
    && (q.maxPrice.Some? ==> p.price <= q.maxPrice.value)
    && (q.attributes.Some? && q.attributes.value.Object? ==>
          forall i :: 0 <= i < |q.attributes.value.pairs| ==>
            var (k, v) := q.attributes.value.pairs[i]; k in p.attributes && p.attributes[k] == v)
  }

  /** `get_queryset`: the listed rows, or `None` for the server error of a non-object `attributes`. */
  function Listed(products: seq<Product>, q: ProductQuery): (r: Option<seq<Product>>)
    ensures r.None? <==> q.attributes == Some(NotAnObject)
    ensures r.Some? ==> r.value == Select(products, Filters(q))
  {
    if q.attributes == Some(NotAnObject) then None
    else
      ChainIsConjunction(products, Filters(q));
      Some(WhereAll(products, Filters(q)))
  }

  method GetQueryset(products: seq<Product>, q: ProductQuery) returns (r: Option<seq<Product>>)
    ensures r == Listed(products, q)
  {
    var queryset := FilterByBase(products, q);
    if q.attributes.Some? {
      match q.attributes.value
      case Malformed =>
      case NotAnObject =>
        return None;
      case Object(pairs) =>
        queryset := FilterByAttributes(queryset, pairs);
        WhereAllConcat(products, BaseFilters(q), ContainsFilters(pairs));
    }
    assert AttributeFilters(q) == [] ==> Filters(q) == BaseFilters(q);
    return Some(queryset);
  }

  /** The `category`, `min_price` and `max_price` steps of `get_queryset`. */
  method FilterByBase(products: seq<Product>, q: ProductQuery) returns (r: seq<Product>)
    ensures r == WhereAll(products, BaseFilters(q))
  {
    ghost var byCategory := if q.category.Some? then [CategoryIs(q.category.value)] else [];
    ghost var byMin := if q.minPrice.Some? then [PriceAtLeast(q.minPrice.value)] else [];
    ghost var byMax := if q.maxPrice.Some? then [PriceAtMost(q.maxPrice.value)] else [];
    r := products;
    if q.category.Some? {
      r := Where(r, CategoryIs(q.category.value));
    }
    AppendFilters(products, [], byCategory);
    assert r == WhereAll(products, byCategory);
    if q.minPrice.Some? {
      r := Where(r, PriceAtLeast(q.minPrice.value));
    }
    AppendFilters(products, byCategory, byMin);
    if q.maxPrice.Some? {
      r := Where(r, PriceAtMost(q.maxPrice.value));
    }
    AppendFilters(products, byCategory + byMin, byMax);
  }

  /** One optional step of the chain: at most one filter, applied when present. */
  lemma AppendFilters(rows: seq<Product>, fs: seq<Filter>, step: seq<Filter>)
    requires |step| <= 1
    ensures WhereAll(rows, fs + step)
         == if step == [] then WhereAll(rows, fs) else Where(WhereAll(rows, fs), step[0])
  {
    if step == [] {
      assert fs + step == fs;
    } else {
      assert (fs + step)[..|fs|] == fs;
    }
  }

  /** `for key, value in attr_dict.items(): queryset = queryset.filter(...)`. */
  method FilterByAttributes(rows: seq<Product>, pairs: seq<(string, Scalar)>) returns (r: seq<Product>)
    ensures r == WhereAll(rows, ContainsFilters(pairs))
  {
    r := rows;
    var i := 0;
    while i < |pairs|
      invariant 0 <= i <= |pairs|
      invariant r == WhereAll(rows, ContainsFilters(pairs[..i]))
    {
      var (key, value) := pairs[i];
      assert ContainsFilters(pairs[..i + 1]) == ContainsFilters(pairs[..i]) + [Contains(key, value)];
      AppendFilter(rows, ContainsFilters(pairs[..i]), Contains(key, value));
      r := Where(r, Contains(key, value));
      i := i + 1;
    }
    assert pairs[..i] == pairs;
  }

  /** Applying `a` and then `b` is applying `a + b`. */
  lemma {:induction false} WhereAllConcat(rows: seq<Product>, a: seq<Filter>, b: seq<Filter>)
    ensures WhereAll(rows, a + b) == WhereAll(WhereAll(rows, a), b)
    decreases |b|
  {
    if b == [] {
      assert a + b == a;
    } else {
      var init, last := b[..|b| - 1], b[|b| - 1];
      WhereAllConcat(rows, a, init);
      assert (a + b)[..|a + b| - 1] == a + init;
    }
  }

  lemma AppendFilter(rows: seq<Product>, fs: seq<Filter>, f: Filter)
    ensures WhereAll(rows, fs + [f]) == Where(WhereAll(rows, fs), f)
  {
    assert (fs + [f])[..|fs|] == fs;
  }

  // ---------------------------------------------------------------------------
  // The chain is a conjunction

  /** Filtering what is selected by `fs` with `f` selects by `fs + [f]`. */
  lemma {:induction false} WhereSelect(rows: seq<Product>, fs: seq<Filter>, f: Filter)
    ensures Where(Select(rows, fs), f) == Select(rows, fs + [f])
    decreases |rows|
  {
    if rows != [] {
      WhereSelect(rows[1..], fs, f);
      var x := rows[0];
      assert HoldsAll(x, fs + [f]) <==> HoldsAll(x, fs) && Holds(x, f) by {
        assert (fs + [f])[|fs|] == f;
        assert forall i :: 0 <= i < |fs| ==> (fs + [f])[i] == fs[i];
      }
      var head := if HoldsAll(x, fs) then [x] else [];
      WhereConcat(head, Select(rows[1..], fs), f);
      if HoldsAll(x, fs) {
        assert Where([x], f) == (if Holds(x, f) then [x] else []) + Where([], f);
      }
    }
  }

  lemma WhereConcat(a: seq<Product>, b: seq<Product>, f: Filter)
    requires |a| <= 1
    ensures Where(a + b, f) == Where(a, f) + Where(b, f)
  {
    if a == [] {
      assert a + b == b;
    } else {
      assert (a + b)[1..] == b;
      assert Where(a, f) == (if Holds(a[0], f) then [a[0]] else []) + Where([], f);
    }
  }

  lemma {:induction false} SelectNothing(rows: seq<Product>)
    ensures Select(rows, []) == rows
    decreases |rows|
  {
    if rows != [] {
      SelectNothing(rows[1..]);
      assert rows == [rows[0]] + rows[1..];
    }
  }

  /** Applying the filters one by one keeps exactly the rows that pass them all, in order. */
  lemma {:induction false} ChainIsConjunction(rows: seq<Product>, fs: seq<Filter>)
    ensures WhereAll(rows, fs) == Select(rows, fs)
    decreases |fs|
  {
    if fs == [] {
      SelectNothing(rows);
    } else {
      var init, last := fs[..|fs| - 1], fs[|fs| - 1];
      ChainIsConjunction(rows, init);
      WhereSelect(rows, init, last);
      assert init + [last] == fs;
    }
  }

  lemma HoldsAllConcat(p: Product, a: seq<Filter>, b: seq<Filter>)
    ensures HoldsAll(p, a + b) <==> HoldsAll(p, a) && HoldsAll(p, b)
  {
    if HoldsAll(p, a) && HoldsAll(p, b) {
      forall i | 0 <= i < |a + b|
        ensures Holds(p, (a + b)[i])
      {
        if i >= |a| {
          assert (a + b)[i] == b[i - |a|];
        }
      }
    }
    if HoldsAll(p, a + b) {
      forall i | 0 <= i < |a|
        ensures Holds(p, a[i])
      {
        assert (a + b)[i] == a[i];
      }
      forall i | 0 <= i < |b|
        ensures Holds(p, b[i])
      {
        assert (a + b)[|a| + i] == b[i];
      }
    }
  }

  lemma FiltersMeanMatches(p: Product, q: ProductQuery)
    ensures HoldsAll(p, Filters(q)) <==> Matches(p, q)
  {
    var a := if q.category.Some? then [CategoryIs(q.category.value)] else [];
    var b := if q.minPrice.Some? then [PriceAtLeast(q.minPrice.value)] else [];
    var c := if q.maxPrice.Some? then [PriceAtMost(q.maxPrice.value)] else [];
    var d := if q.attributes.Some? && q.attributes.value.Object? then ContainsFilters(q.attributes.value.pairs) else [];
    HoldsAllConcat(p, a + b + c, d);
    HoldsAllConcat(p, a + b, c);
    HoldsAllConcat(p, a, b);
    assert HoldsAll(p, a) <==> (q.category.Some? ==> p.categoryId == q.category.value) by {
      if q.category.Some? { assert a[0] == CategoryIs(q.category.value); }
    }
    assert HoldsAll(p, b) <==> (q.minPrice.Some? ==> p.price >= q.minPrice.value) by {
      if q.minPrice.Some? { assert b[0] == PriceAtLeast(q.minPrice.value); }
    }
    assert HoldsAll(p, c) <==> (q.maxPrice.Some? ==> p.price <= q.maxPrice.value) by {
      if q.maxPrice.Some? { assert c[0] == PriceAtMost(q.maxPrice.value); }
    }
  }

  /**
   * The list holds, in catalog order, exactly the products that meet every given
   * condition; a non-object `attributes` is a server error.
   */
  lemma ListedAreMatches(products: seq<Product>, q: ProductQuery)
    ensures Listed(products, q).None? <==> q.attributes == Some(NotAnObject)
    ensures Listed(products, q).Some? ==>
      Listed(products, q).value == Select(products, Filters(q))
      && |Listed(products, q).value| <= |products|
      && forall p :: p in Listed(products, q).value <==> p in products && Matches(p, q)
  {
    if q.attributes != Some(NotAnObject) {
      ChainIsConjunction(products, Filters(q));
      forall p
        ensures p in Select(products, Filters(q)) <==> p in products && Matches(p, q)
      {
        FiltersMeanMatches(p, q);
      }
      SelectShrinks(products, Filters(q));
    }
  }

  lemma {:induction false} SelectShrinks(rows: seq<Product>, fs: seq<Filter>)
    ensures |Select(rows, fs)| <= |rows|
    decreases |rows|
  {
    if rows != [] {
      SelectShrinks(rows[1..], fs);
    }
  }

  /** Malformed JSON in `attributes` is ignored: the list is the one without the parameter. */
  lemma MalformedAttributesIgnored(products: seq<Product>, q: ProductQuery)
    ensures Listed(products, q.(attributes := Some(Malformed))) == Listed(products, q.(attributes := None))
  {
  }

  /** Without parameters every product is listed. */
  lemma NoParametersListAll(products: seq<Product>)
    ensures Listed(products, ProductQuery(None, None, None, None)) == Some(products)
  {
  }

  // ---------------------------------------------------------------------------
  // like_product

  method LikeProduct(catalog: Products, likes: LikeTable, user: int, pk: int)
    returns (r: Result<LikeSummary, ReviewError>)
    modifies likes
    ensures pk !in catalog ==> r == Failure(ProductNotFound) && likes.likes == old(likes.likes)
    ensures pk in catalog ==>
      && likes.likes == Toggled(old(likes.likes), user, pk)
      && r == Success(LikeSummary((user, pk) !in old(likes.likes), likes.Count(pk)))
      && r == Success(LikeRepresentation(likes.likes, Some(user), pk))
  {
    if pk !in catalog {
      return Failure(ProductNotFound);
    }
    var liked := likes.Toggle(user, pk);
    r := Success(LikeSummary(liked, likes.Count(pk)));
  }

  // ---------------------------------------------------------------------------
  // create_review

  /**
   * `create_review` after the product lookup: a delivered order first, then no prior
   * review, then field validation.
   */
  function ReviewDecision(purchases: seq<Purchase>, reviews: seq<Review>, user: int, product: int, input: ReviewInput)
    : (r: Result<(Rating, string), ReviewError>)
    ensures r.Success? <==>
      && HasPurchased(purchases, user, product, {Delivered})
      && !HasReviewed(reviews, user, product)
      && ValidateFields(input).Some?
    ensures r.Success? ==> Some(r.value) == ValidateFields(input)
    ensures !HasPurchased(purchases, user, product, {Delivered}) ==> r == Failure(NotPurchased)
    ensures HasPurchased(purchases, user, product, {Delivered}) && HasReviewed(reviews, user, product) ==>
      r == Failure(AlreadyReviewed)
  {
    if !HasPurchased(purchases, user, product, {Delivered}) then Failure(NotPurchased)
    else if HasReviewed(reviews, user, product) then Failure(AlreadyReviewed)
    else match ValidateFields(input)
      case None => Failure(InvalidData)
      case Some(attrs) => Success(attrs)
  }

  method CreateReview(catalog: Products, purchases: seq<Purchase>, table: ReviewTable, user: int, pk: int,
                      input: ReviewInput) returns (r: Result<Review, ReviewError>)
    requires table.Valid()
    modifies table
    ensures table.Valid()
    ensures pk !in catalog ==> r == Failure(ProductNotFound) && table.reviews == old(table.reviews)
    ensures pk in catalog ==>
      match ReviewDecision(purchases, old(table.reviews), user, pk, input)
      case Failure(e) => r == Failure(e) && table.reviews == old(table.reviews)
      case Success(attrs) =>
        r == Success(CreatedReview(user, pk, attrs)) && table.reviews == old(table.reviews) + [r.value]
  {
    if pk !in catalog {
      return Failure(ProductNotFound);
    }
    var d := ReviewDecision(purchases, table.reviews, user, pk, input);
    if d.Failure? {
      return Failure(d.error);
    }
    var review := CreatedReview(user, pk, d.value);
    table.Add(review);
    r := Success(review);
  }

  /**
   * This view accepts only delivered orders while the review serializer also takes
   * processing and shipped ones: whatever this view accepts, the serializer accepts.
   */
  lemma ViewStricterThanSerializer(purchases: seq<Purchase>, reviews: seq<Review>, user: int, product: int,
                                   input: ReviewInput)
    ensures ReviewDecision(purchases, reviews, user, product, input).Success? ==>
      Validate(purchases, reviews, user, product, input) == ReviewDecision(purchases, reviews, user, product, input)
  {
    if HasPurchased(purchases, user, product, {Delivered}) {
      var i :| 0 <= i < |purchases| && purchases[i].user == user && purchases[i].product == product
               && purchases[i].status in {Delivered};
      assert purchases[i].status in ReviewableStatuses;
    }
  }

  /** A shipped but undelivered order is enough for the serializer and not for this view. */
  lemma ShippedOrderSplitsTheViews(user: int, product: int)
    ensures var purchases := [Purchase(user, product, Shipped)];
      var input := ReviewInput(Some(5), None);
      && ReviewDecision(purchases, [], user, product, input) == Failure(NotPurchased)
      && Validate(purchases, [], user, product, input) == Success((5, ""))
  {
    var purchases := [Purchase(user, product, Shipped)];
    assert purchases[0].status in ReviewableStatuses;
  }
}

=== FILE: reviews_models.dfy ===
/**
 * reviews/models.py: reviews with a rating from 1 to 5, and product likes. The rows
 * are keyed by the user the views attach to them.
 */
module ReviewModels {
  import opened Wrappers

  /** `MinValueValidator(1)`, `MaxValueValidator(5)`. */
  type Rating = r: int | 1 <= r <= 5 witness 1

  datatype Review = Review(user: int, product: int, rating: Rating, comment: string)

  /** The request body of a review: `rating` and the optional `comment`. */
  datatype ReviewInput = ReviewInput(rating: Option<int>, comment: Option<string>)

  /** Field validation of `rating` and `comment`: a rating 1..5 is required, the comment may be blank or absent. */
  function ValidateFields(input: ReviewInput): (r: Option<(Rating, string)>)
    ensures r.Some? <==> input.rating.Some? && 1 <= input.rating.value <= 5
    ensures r.Some? ==> r.value.0 == input.rating.value && r.value.1 == input.comment.GetOr("")
  {
    if input.rating.Some? && 1 <= input.rating.value <= 5
    then Some((input.rating.value as Rating, input.comment.GetOr("")))
    else None
  }

  predicate HasReviewed(reviews: seq<Review>, user: int, product: int) {
    exists i :: 0 <= i < |reviews| && reviews[i].user == user && reviews[i].product == product
  }

  /** At most one review per (user, product). */
  ghost predicate OneReviewPerPair(reviews: seq<Review>) {
    forall i, j :: 0 <= i < j < |reviews| ==>
      !(reviews[i].user == reviews[j].user && reviews[i].product == reviews[j].product)
  }

  /** A review for a pair not yet reviewed keeps the table at one review per pair. */
  lemma AppendKeepsOneReviewPerPair(reviews: seq<Review>, r: Review)
    requires OneReviewPerPair(reviews) && !HasReviewed(reviews, r.user, r.product)
    ensures OneReviewPerPair(reviews + [r])
    ensures HasReviewed(reviews + [r], r.user, r.product)
  {
    var s := reviews + [r];
    assert s[|reviews|] == r;
    forall i, j | 0 <= i < j < |s|
      ensures !(s[i].user == s[j].user && s[i].product == s[j].product)
    {
      assert s[i] == reviews[i];
      if j == |reviews| {
        assert !(reviews[i].user == r.user && reviews[i].product == r.product);
      } else {
        assert s[j] == reviews[j];
      }
    }
  }

  class ReviewTable {
    var reviews: seq<Review>

    ghost predicate Valid()
      reads this
    {
      OneReviewPerPair(reviews)
    }

    constructor ()
      ensures reviews == [] && Valid()
    {
      reviews := [];
    }

    /** `Review.objects.create(...)`. */
    method Add(r: Review)
      requires Valid() && !HasReviewed(reviews, r.user, r.product)
      modifies this
      ensures reviews == old(reviews) + [r]
      ensures Valid() && HasReviewed(reviews, r.user, r.product)
    {
      AppendKeepsOneReviewPerPair(reviews, r);
      reviews := reviews + [r];
    }
  }

  // ---------------------------------------------------------------------------
  // Likes: a set of (user, product) pairs

  type Like = (int, int)

  /** The likes of one product (`product.likes`). */
  function LikesOn(likes: set<Like>, product: int): set<Like> {
    set l | l in likes && l.1 == product
  }

  /** `get_or_create` then `delete()` when it already existed. */
  function Toggled(likes: set<Like>, user: int, product: int): set<Like> {
    if (user, product) in likes then likes - {(user, product)} else likes + {(user, product)}
  }

  /** Toggling twice restores the likes. */
  lemma ToggleTwice(likes: set<Like>, user: int, product: int)
    ensures Toggled(Toggled(likes, user, product), user, product) == likes
  {
  }

  /**
   * A toggle flips the one pair and leaves every other like alone; the product's
   * like count moves by one and other products' likes do not change.
   */
  lemma ToggleFlipsOnePair(likes: set<Like>, user: int, product: int, other: Like, q: int)
    ensures var after := Toggled(likes, user, product);
      && ((user, product) in after <==> (user, product) !in likes)
      && (other != (user, product) ==> (other in after <==> other in likes))
      && |LikesOn(after, product)| == |LikesOn(likes, product)| + (if (user, product) in likes then -1 else 1)
      && (q != product ==> LikesOn(after, q) == LikesOn(likes, q))
  {
    var after := Toggled(likes, user, product);
    if (user, product) in likes {
      assert LikesOn(after, product) == LikesOn(likes, product) - {(user, product)};
    } else {
      assert LikesOn(after, product) == LikesOn(likes, product) + {(user, product)};
    }
  }

  class LikeTable {
    var likes: set<Like>

    constructor ()
      ensures likes == {}
    {
      likes := {};
    }

    /** `product.likes.count()`. */
    function Count(product: int): nat
      reads this
    {
      |LikesOn(likes, product)|
    }

    /** The toggle of both like views: true when the like now exists. */
    method Toggle(user: int, product: int) returns (liked: bool)
      modifies this
      ensures likes == Toggled(old(likes), user, product)
      ensures liked <==> (user, product) in likes
    {
      if (user, product) in likes {
        likes := likes - {(user, product)};
        liked := false;
      } else {
        likes := likes + {(user, product)};
        liked := true;
      }
    }
  }
}

=== FILE: reviews_serializers.dfy ===
/**
 * reviews/serializers.py: `ReviewCreateSerializer.validate` (a purchase check, then
 * a duplicate check), its `create`, and the like summary of `ProductLikeSerializer`.
 */
module ReviewSerializers {
  import opened Wrappers
  import opened OrderModels
  import opened ReviewModels

  /** `order__status__in=['delivered', 'processing', 'shipped']`. */
  const ReviewableStatuses: set<Status> := {Delivered, Processing, Shipped}

  /** An order item of `user`'s for `product` in an order whose status is one of `statuses`. */
  predicate HasPurchased(purchases: seq<Purchase>, user: int, product: int, statuses: set<Status>) {
    exists i :: 0 <= i < |purchases| && purchases[i].user == user && purchases[i].product == product
                && purchases[i].status in statuses
  }

  datatype ReviewError =
    | ProductNotFound   // 404
    | InvalidData       // a field error: rating missing or outside 1..5
    | NotPurchased      // "You can only review products you have purchased"
    | AlreadyReviewed   // "You have already reviewed this product"

  /**
   * `is_valid`: field validation first, then `validate`: the purchase check before
   * the duplicate check. The result is the validated rating and comment.
   */
  function Validate(purchases: seq<Purchase>, reviews: seq<Review>, user: int, product: int, input: ReviewInput)
    : (r: Result<(Rating, string), ReviewError>)
    ensures r.Success? <==>
      && ValidateFields(input).Some?
      && HasPurchased(purchases, user, product, ReviewableStatuses)
      && !HasReviewed(reviews, user, product)
    ensures r.Success? ==> Some(r.value) == ValidateFields(input)
    ensures ValidateFields(input).None? ==> r == Failure(InvalidData)
    ensures ValidateFields(input).Some? && !HasPurchased(purchases, user, product, ReviewableStatuses) ==>
      r == Failure(NotPurchased)
    ensures r == Failure(AlreadyReviewed) <==>
      ValidateFields(input).Some? && HasPurchased(purchases, user, product, ReviewableStatuses)
      && HasReviewed(reviews, user, product)
  {
    match ValidateFields(input)
    case None => Failure(InvalidData)
    case Some(attrs) =>
      if !HasPurchased(purchases, user, product, ReviewableStatuses) then Failure(NotPurchased)
      else if HasReviewed(reviews, user, product) then Failure(AlreadyReviewed)
      else Success(attrs)
  }

  /** `create`: the requester, the product id of the URL, and the validated fields. */
  function CreatedReview(user: int, product: int, attrs: (Rating, string)): (r: Review)
    ensures r.user == user && r.product == product && r.rating == attrs.0 && r.comment == attrs.1
  {
    Review(user, product, attrs.0, attrs.1)
  }

  datatype LikeSummary = LikeSummary(liked: bool, likesCount: nat)

  /** `to_representation`: an anonymous user (`None`) never likes; the count is the product's likes. */
  function LikeRepresentation(likes: set<Like>, user: Option<int>, product: int): (r: LikeSummary)
    ensures r.liked <==> user.Some? && (user.value, product) in likes
    ensures r.likesCount == |LikesOn(likes, product)|
  {
    LikeSummary(user.Some? && (user.value, product) in likes, |LikesOn(likes, product)|)
  }

  /**
   * The representation after a toggle by a signed-in user: `liked` flips and the
   * product's count moves by exactly one, up for a new like and down for a removed one.
   */
  lemma ToggleFlipsRepresentation(likes: set<Like>, user: int, product: int)
    ensures var before := LikeRepresentation(likes, Some(user), product);
      var after := LikeRepresentation(Toggled(likes, user, product), Some(user), product);
      && after.liked == !before.liked
      && after.likesCount == before.likesCount + (if before.liked then -1 else 1)
  {
    ToggleFlipsOnePair(likes, user, product, (user, product), product);
  }

  /** A validated review never duplicates one: adding it keeps one review per pair. */
  lemma ValidatedReviewIsFirst(purchases: seq<Purchase>, reviews: seq<Review>, user: int, product: int,
                               input: ReviewInput)
    requires OneReviewPerPair(reviews)
    requires Validate(purchases, reviews, user, product, input).Success?
    ensures var review := CreatedReview(user, product, Validate(purchases, reviews, user, product, input).value);
      OneReviewPerPair(reviews + [review])
      && Validate(purchases, reviews + [review], user, product, input) == Failure(AlreadyReviewed)
  {
    var review := CreatedReview(user, product, Validate(purchases, reviews, user, product, input).value);
    AppendKeepsOneReviewPerPair(reviews, review);
  }
}

=== FILE: reviews_views.dfy ===
/**
 * reviews/views.py: `ProductReviewCreateView.create` (404 for a missing product,
 * then the serializer) and `ProductLikeToggleView.post` (404, then the toggle).
 */
module ReviewViews {
  import opened Wrappers
  import opened Catalog
  import opened OrderModels
  import opened ReviewModels
  import opened ReviewSerializers

  method CreateReview(catalog: Products, purchases: seq<Purchase>, table: ReviewTable, user: int, productId: int,
                      input: ReviewInput) returns (r: Result<Review, ReviewError>)
    requires table.Valid()
    modifies table
    ensures table.Valid()
    ensures productId !in catalog ==> r == Failure(ProductNotFound) && table.reviews == old(table.reviews)
    ensures productId in catalog ==>
      match Validate(purchases, old(table.reviews), user, productId, input)
      case Failure(e) => r == Failure(e) && table.reviews == old(table.reviews)
      case Success(attrs) =>
        r == Success(CreatedReview(user, productId, attrs)) && table.reviews == old(table.reviews) + [r.value]
  {
    if productId !in catalog {
      return Failure(ProductNotFound);
    }
    var v := Validate(purchases, table.reviews, user, productId, input);
    if v.Failure? {
      return Failure(v.error);
    }
    var review := CreatedReview(user, productId, v.value);
    table.Add(review);
    r := Success(review);
  }

  method ToggleLike(catalog: Products, likes: LikeTable, user: int, productId: int)
    returns (r: Result<LikeSummary, ReviewError>)
    modifies likes
    ensures productId !in catalog ==> r == Failure(ProductNotFound) && likes.likes == old(likes.likes)
    ensures productId in catalog ==>
      && likes.likes == Toggled(old(likes.likes), user, productId)
      && r == Success(LikeSummary((user, productId) !in old(likes.likes), likes.Count(productId)))
      && r == Success(LikeRepresentation(likes.likes, Some(user), productId))
  {
    if productId !in catalog {
      return Failure(ProductNotFound);
    }
    var liked := likes.Toggle(user, productId);
    r := Success(LikeSummary(liked, likes.Count(productId)));
  }
}

=== FILE: strings.dfy ===
/**
 * String helpers shared by the model: decimal digits, the decimal rendering of a
 * natural number (used in cache keys), and Python's argument-less `str.split()`
 * together with `' '.join(...)`.
 */
module Strings {
  import opened Wrappers

  /** Python truthiness of an optional request field: present and not the empty string. */
  predicate Given(field: Option<string>) {
    field.Some? && field.value != ""
  }

  /** An ASCII decimal digit. */
  predicate IsDigit(c: char) {
    '0' <= c <= '9'
  }

  predicate AllDigits(s: string) {
    forall i :: 0 <= i < |s| ==> IsDigit(s[i])
  }

  /** The digits of `s`, in order: `''.join(filter(str.isdigit, s))`. */
  function DigitsOf(s: string): (d: string)
    ensures AllDigits(d) && |d| <= |s|
    ensures AllDigits(s) ==> d == s
  {
    if s == [] then []
    else if IsDigit(s[0]) then [s[0]] + DigitsOf(s[1..])
    else DigitsOf(s[1..])
  }

  lemma {:induction false} DigitsOfConcat(a: string, b: string)
    ensures DigitsOf(a + b) == DigitsOf(a) + DigitsOf(b)
  {
    if a != [] {
      assert (a + b)[0] == a[0];
      assert (a + b)[1..] == a[1..] + b;
      DigitsOfConcat(a[1..], b);
      if IsDigit(a[0]) {
        assert [a[0]] + (DigitsOf(a[1..]) + DigitsOf(b)) == ([a[0]] + DigitsOf(a[1..])) + DigitsOf(b);
      }
    } else {
      assert a + b == b;
    }
  }

  function DigitChar(n: nat): (c: char)
    requires n < 10
    ensures IsDigit(c)
  {
    "0123456789"[n]
  }

  function DigitValue(c: char): (n: nat)
    requires IsDigit(c)
    ensures n < 10 && DigitChar(n) == c
  {
    (c as int - '0' as int) as nat
  }

  /** `str(n)` for a natural number: its decimal rendering without leading zeros. */
  function NatToString(n: nat): (s: string)
    ensures |s| >= 1 && AllDigits(s)
    ensures n < 10 <==> |s| == 1
  {
    if n < 10 then [DigitChar(n)] else NatToString(n / 10) + [DigitChar(n % 10)]
  }

  /** Different numbers render differently, so a bucket number is recoverable from a key. */
  lemma {:induction false} NatToStringInjective(a: nat, b: nat)
    requires NatToString(a) == NatToString(b)
    ensures a == b
  {
    if a >= 10 && b >= 10 {
      var sa, sb := NatToString(a), NatToString(b);
      assert sa[..|sa| - 1] == NatToString(a / 10);
      assert sb[..|sb| - 1] == NatToString(b / 10);
      NatToStringInjective(a / 10, b / 10);
      assert DigitValue(sa[|sa| - 1]) == a % 10;
      assert DigitValue(sb[|sb| - 1]) == b % 10;
    } else if a < 10 && b < 10 {
      assert DigitValue(NatToString(a)[0]) == a;
      assert DigitValue(NatToString(b)[0]) == b;
    }
  }

  /** Python's `str.isspace()` for a single character. */
  predicate IsSpace(c: char) {
    c == ' ' || ('\U{9}' <= c <= '\U{D}') || ('\U{1C}' <= c <= '\U{1F}')
    || c == '\U{85}' || c == '\U{A0}' || c == '\U{1680}' || ('\U{2000}' <= c <= '\U{200A}')
    || c == '\U{2028}' || c == '\U{2029}' || c == '\U{202F}' || c == '\U{205F}' || c == '\U{3000}'
  }

  predicate NoSpace(s: string) {
    forall i :: 0 <= i < |s| ==> !IsSpace(s[i])
  }

  /** The longest prefix of `s` holding no whitespace. */
  function LeadingWord(s: string): (w: string)
    ensures |w| <= |s| && w == s[..|w|] && NoSpace(w)
    ensures |w| < |s| ==> IsSpace(s[|w|])
  {
    if s == [] || IsSpace(s[0]) then [] else [s[0]] + LeadingWord(s[1..])
  }

  /** Python's `s.split()`: the maximal runs of non-whitespace characters, in order. */
  function Split(s: string): (words: seq<string>)
    ensures forall i :: 0 <= i < |words| ==> words[i] != [] && NoSpace(words[i])
    decreases |s|
  {
    if s == [] then []
    else if IsSpace(s[0]) then Split(s[1..])
    else
      var w := LeadingWord(s);
      [w] + Split(s[|w|..])
  }

  /** Python's `' '.join(words)`. */
  function JoinWithSpace(words: seq<string>): string {
    if words == [] then ""
    else if |words| == 1 then words[0]
    else words[0] + " " + JoinWithSpace(words[1..])
  }

  lemma {:induction false} LeadingWordOf(w: string, rest: string)
    requires NoSpace(w)
    requires rest == [] || IsSpace(rest[0])
    ensures LeadingWord(w + rest) == w
  {
    if w != [] {
      assert (w + rest)[1..] == w[1..] + rest;
      LeadingWordOf(w[1..], rest);
    }
  }

  /** A whitespace-free word followed by whitespace (or nothing) splits off as the first word. */
  lemma SplitWord(w: string, rest: string)
    requires w != [] && NoSpace(w)
    requires rest == [] || IsSpace(rest[0])
    ensures Split(w + rest) == [w] + Split(rest)
  {
    LeadingWordOf(w, rest);
    assert (w + rest)[0] == w[0];
    assert (w + rest)[|w|..] == rest;
  }

  /** A leading blank is skipped. */
  lemma SplitBlank(rest: string)
    ensures Split(" " + rest) == Split(rest)
  {
    assert (" " + rest)[1..] == rest;
  }

  /**
   * Splitting the space-joined form of whitespace-free, non-empty words gives the
   * words back: `' '.join(ws).split() == ws`.
   */
  lemma {:induction false} SplitJoin(words: seq<string>)
    requires forall i :: 0 <= i < |words| ==> words[i] != [] && NoSpace(words[i])
    ensures Split(JoinWithSpace(words)) == words
  {
    if |words| == 1 {
      SplitWord(words[0], []);
      assert words[0] + [] == words[0];
    } else if |words| > 1 {
      var w, rest := words[0], JoinWithSpace(words[1..]);
      assert JoinWithSpace(words) == w + (" " + rest);
      SplitWord(w, " " + rest);
      SplitBlank(rest);
      SplitJoin(words[1..]);
      assert words == [w] + words[1..];
    }
  }
}

=== FILE: wrappers.dfy ===
/** Option and Result, used across the model for absent values and error outcomes. */
module Wrappers {

  datatype Option<+T> = None | Some(value: T) {
    function GetOr(default: T): T {
      match this
      case Some(v) => v
      case None => default
    }
  }

  datatype Result<+R, +E> = Success(value: R) | Failure(error: E)
}
